=== FILE: README.md ===
# mcp-browser-agent, modelled in Dafny

A model of the core of mcp-browser-agent. The program is a Model Context Protocol server. It lets
an agent drive one browser page through seven `browser_*` tools and send HTTP requests through
five `api_*` tools. It exposes the page's console log and the screenshots it has taken as
resources.

The model is functional. The server's module-level variables become one immutable
`Session.State`: the browser, the page, the console log and the screenshot registry. Every request
handler is a pure function from a state to a new state, a reply and the trace of calls it made.

Everything outside the program is a `Capabilities.World`. This covers the browser driver, the file
system, the environment, the clock, base64, JSON pretty-printing and the HTTP client. Each of its
functions returns an `Outcome`, either a value or the message of the error it throws. Every
browser action, capture, screenshot write, notification and HTTP send is recorded as a
`Capabilities.Call`. The settings file's reads and write, the check and creation of the screenshot
directory, the registration of the console listener and the reading of an HTTP response's body
are not recorded. Recording the calls makes the call trace observable: "no second launch", "the viewport is always 1920x1080" and "the file is written
before the notification" can all be stated as facts.

Files:

- `wrappers.dfy`: `Option`, `Outcome`, `Unit`.
- `text.dfy`: the JavaScript string operations the core uses: `toLowerCase`, `indexOf`, `split`,
  `join`, and decimal rendering.
- `catalogue.dfy`: `BROWSER_TOOLS`, `API_TOOLS` and `registerTools()` (src/tools.ts).
- `settings.dfy`: `parseArgs` (src/index.ts).
- `registry.dfy`: the screenshot `Map`, with its insertion order.
- `capabilities.dfy`: the `World` and the call trace.
- `session.dfy`:
  - `getBrowserType`;
  - the engine switch;
  - `initBrowser` and `cleanupBrowser`;
  - the console listener.
- `executor.dfy`: `executeToolCall` and the twelve tool handlers.
- `resources.dfy`:
  - the request handlers of src/handlers.ts;
  - a run of requests interleaved with console messages.

## Model

| member | source | states |
|---|---|---|
| Text.Lower | src/executor.ts:16 | `toLowerCase` keeps the length and lowers each character; `Text.LowerIsIdempotent` shows the result has no upper-case letter and lowering again changes nothing |
| Text.LowerIsIdempotent | src/executor.ts:24 | a lowered browser kind holds no upper-case letter and is a fixed point of lowering |
| Text.Find | src/executor.ts:113 | the search returns the first occurrence of the separator, with none before it; None means there is no occurrence anywhere |
| Text.Split | src/handlers.ts:45 | `split` yields at least one piece, and no piece contains the separator |
| Text.SplitHead | src/handlers.ts:45 | the first piece of a split is everything before the first occurrence, or the whole string when there is none |
| Text.SplitAfterFirst | src/handlers.ts:45 | when the separator first occurs right after `a`, splitting `a + sep + b` gives `a` and then the pieces of `b` |
| Text.JoinSplit | src/handlers.ts:39 | splitting and then joining with the same separator gives back the string |
| Text.SplitJoinChar | src/handlers.ts:39 | lines without a newline are recovered by splitting their newline-join |
| Text.JoinSnoc | src/handlers.ts:39 | joining one more line appends the separator and the line |
| Text.Decimal | src/executor.ts:486 | the status code is rendered as a non-empty digit string with no leading zero |
| Text.DecimalValue | src/executor.ts:486 | reading back the rendered status gives the number |
| Catalogue.BrowserTools | src/tools.ts:3-11 | the browser list has seven names |
| Catalogue.ApiTools | src/tools.ts:13-19 | the API list has five names |
| Catalogue.ToolListsAreDisjoint | src/tools.ts:3-19 | no name is in both lists, and neither list repeats a name |
| Catalogue.NameIsInjective | src/executor.ts:149-186 | distinct switch cases have distinct names |
| Catalogue.ParseTool | src/executor.ts:149-186 | a name selects a switch case exactly when it is in one of the two lists, and the case it selects carries that name |
| Catalogue.ParseName | src/executor.ts:149-186 | every tool's name selects that tool's case |
| Catalogue.Classify | src/executor.ts:135-147 | a name is routed to the browser, to the HTTP client, or rejected as unknown, and each route holds exactly when the switch case is of that kind or missing |
| Catalogue.Definition | src/tools.ts:21-200 | each tool's definition describes that tool; its schema declares each name it requires; POST, PUT and PATCH require exactly url and data; GET and DELETE require exactly url |
| Catalogue.BrowserDefinition | src/tools.ts:22-115 | each browser tool's definition describes that tool and declares each name it requires |
| Catalogue.ApiDefinition | src/tools.ts:116-199 | each HTTP tool's definition describes that tool; the tools with a body require url and data, the others only url |
| Catalogue.Index | src/tools.ts:21-200 | every tool has a position in catalogue order |
| Catalogue.RegisteredNames | src/tools.ts:21-200 | the catalogue holds twelve definitions with pairwise distinct names |
| Catalogue.NamePositions | src/tools.ts:3-19 | a tool's catalogue position is its position in the browser list followed by the API list |
| Catalogue.RegisteredNamesAreToolLists | src/tools.ts:21-200 | the registered names are exactly `BROWSER_TOOLS` followed by `API_TOOLS` |
| Catalogue.RegisteredNamesDispatch | src/executor.ts:149-186 | every registered name reaches its own tool's case of the switch |
| Catalogue.WaitUntilChoices | src/tools.ts:30-35 | navigation's wait condition is one of load, domcontentloaded, networkidle and commit |
| Catalogue.RegisteredSchemas | src/tools.ts:21-200 | every listed schema is well formed, with the required lists of the HTTP tools as stated above |
| Settings.LastIndex | src/index.ts:17-30 | the last index where a flag is followed by a token, with no later such index; None when no occurrence has a token after it |
| Settings.LastIndexStep | src/index.ts:17-30 | scanning one more token makes the previous token the flag's last index when it is the flag, and otherwise changes nothing |
| Settings.Examine | src/index.ts:18-29 | one iteration changes only the flag that the current token names, takes the next token as its value (the browser kind lowered), and changes nothing at the last token |
| Settings.ExamineStep | src/index.ts:17-30 | one loop iteration turns the per-flag result of the scanned prefix into that of the next prefix |
| Settings.ScanArgs | src/index.ts:17-30 | the loop computes, for each of the four flags, the value after its last occurrence that has a following token |
| Settings.LastOccurrenceWins | src/index.ts:17-30 | a flag and value at the end of the arguments override every earlier occurrence |
| Settings.TrailingFlagIgnored | src/index.ts:17-30 | a flag with nothing after it is ignored |
| Settings.ValueTokensAreExamined | src/index.ts:17-30 | a value token is examined again as a flag: `--browser --viewport-width 800` sets both the browser kind and the width |
| Settings.Pending | src/index.ts:38-56 | the browser kind applies exactly when the flag gave a non-empty string, as that string; a numeric setting applies exactly when its parsed number is truthy, as its printed text and the number |
| Settings.SetProperty | src/index.ts:38-56 | a property assignment throws exactly on null and primitives; on an object it stores the value under the key and keeps every other key; an array is written back unchanged |
| Settings.Apply | src/index.ts:38-58 | an array file is written back unchanged; an object file is written back as an object; a primitive file is written back, unchanged, exactly when no flag applies |
| Settings.ApplyFlags | src/index.ts:32-61 | an unreadable settings file leaves the environment alone and writes nothing |
| Settings.ParseArgs | src/index.ts:10-62 | the start-up result is the per-flag scan result merged into the environment and settings; an unreadable file changes nothing |
| Settings.ConfigKeyIsInjective | src/index.ts:38-56 | the four settings use distinct properties and distinct variables |
| Settings.ApplyToObjectSets | src/index.ts:38-56 | merging into an object sets, for every applied flag, its variable and its property to the same value, and the result stays an object |
| Settings.ApplyToObjectKeeps | src/index.ts:38-56 | merging into an object leaves every property and every variable that no applied flag names as it was |
| Settings.MergeIntoObject | src/index.ts:32-61 | with no file or an object file, each applied flag sets its variable and its property to its value, and every other property is kept |
| Settings.FirstPending | src/index.ts:38-56 | the earliest setting in order that applies, with none before it applying; None exactly when none applies |
| Settings.ApplyToPrimitive | src/index.ts:38-58 | a file holding a primitive makes the first applied flag's property assignment throw after its variable is set, so later flags and the write are lost |
| Registry.Set | src/executor.ts:286 | `Map.set` stores the value and leaves other keys alone; a new key goes last and an existing key keeps its place; the registry stays well formed |
| Registry.EmptyIsValid | src/executor.ts:11 | the empty registry is well formed |
| Registry.SetIsIdempotent | src/executor.ts:286 | storing the same screenshot twice is the same as storing it once |
| Session.InitialIsConsistent | src/executor.ts:8-11 | at start-up there is no page without a browser, and the registry is well formed |
| Session.BrowserTypeProperty | src/executor.ts:22-23 | reading `browserType` throws exactly on a null settings value; an object gives its property or `undefined`; any other value gives `undefined` |
| Session.GetBrowserType | src/executor.ts:14-32 | a non-empty environment value wins, lowered; otherwise a non-empty string in the settings file, lowered; otherwise "chrome"; the kind never holds an upper-case letter |
| Session.EngineFor | src/executor.ts:70-83 | Firefox exactly for "firefox", WebKit exactly for "webkit" and "safari", Chromium for everything else |
| Session.LaunchFor | src/executor.ts:85-88 | the launch is headed and uses the kind's engine; it has a channel, "chrome", exactly when the kind is "chrome" |
| Session.InitBrowser | src/executor.ts:65-102 | with a browser it makes no call and returns the stored page; otherwise it launches once, first, for the chosen kind, and opens a 1920x1080 context; a failed launch changes nothing; a failure after the launch keeps the launched browser without a page; it yields a page exactly when the launch, the context and the page all succeed, and that page is the one `newPage` returned on the context of the launched browser, after exactly the launch, the context and the page calls; the log and registry are untouched |
| Session.InitBrowserIsIdempotent | src/executor.ts:66 | once a page has been acquired, acquiring again makes no call and returns the same page |
| Session.CleanupBrowser | src/executor.ts:52-63 | without a browser nothing happens; otherwise one close is issued, and browser and page are forgotten exactly when it succeeds |
| Session.RestartAfterCleanup | src/executor.ts:52-102 | after a successful teardown, the next acquisition launches a fresh browser |
| Session.OnConsole | src/executor.ts:96-99 | a console message appends `[type] text` to the log and changes nothing else |
| Session.BrowserFlagDecidesKind | src/index.ts:18-40 | a trailing `--browser` flag decides the engine's kind, whatever the settings file holds, unless the file could not be read |
| Session.FirstSettingReachesEnv | src/index.ts:38-41 | the browser kind flag sets its variable before any property assignment can throw |
| Session.ApplyKeepsVariable | src/index.ts:43-56 | the later settings never change the browser kind variable |
| Executor.WaitThenPerform | src/executor.ts:341-365 | the action runs only after a successful wait for its selector; either failure's message is the error |
| Executor.TimeoutOf | src/executor.ts:211-237 | the navigation timeout is the given one unless it is missing or zero, in which case it is 30000 |
| Executor.WaitUntilOf | src/executor.ts:211-237 | the wait condition is the given one unless it is missing or empty, in which case it is "load" |
| Executor.HandleNavigate | src/executor.ts:211-237 | one goto with the effective timeout and wait condition; it succeeds exactly when the page exists and the goto succeeds; otherwise the reply is "Navigation failed: " and the goto's error, or the TypeError of reading `goto` from a null page |
| Executor.HandleClick | src/executor.ts:316-339 | exactly one click, with no wait first, when the page exists and no call otherwise; it succeeds exactly when the page exists and the click succeeds; otherwise the reply is "Click failed on ", the selector, ": " and the click's error, or the TypeError of reading `click` from a null page |
| Executor.HandleFill | src/executor.ts:341-365 | it succeeds exactly when the wait and then the fill succeed; the success line names the selector and the value; on a page it waits for the selector and issues the fill only after the wait succeeds; a failure is "Fill operation failed on ", the selector, ": " and the wait's error if the wait threw, else the fill's (on a null page, the TypeError of reading `waitForSelector`) |
| Executor.HandleSelect | src/executor.ts:367-391 | it succeeds exactly when the wait and then the selection succeed; on a page it waits for the selector and issues the selection only after the wait succeeds; a failure is "Selection failed on ", the selector, ": " and the wait's error if the wait threw, else the selection's (on a null page, the TypeError of reading `waitForSelector`) |
| Executor.HandleHover | src/executor.ts:393-417 | it succeeds exactly when the wait and then the hover succeed; on a page it waits for the selector and issues the hover only after the wait succeeds; a failure is "Hover failed on ", the selector, ": " and the wait's error if the wait threw, else the hover's (on a null page, the TypeError of reading `waitForSelector`) |
| Executor.HandleEvaluate | src/executor.ts:419-473 | it succeeds exactly when the page exists and the script evaluates; on success, the rendered result and then the captured console lines, newline-joined; on failure, "Script execution failed: " and the script's error, or the TypeError of reading `evaluate` from a null page |
| Executor.MaskOn | src/executor.ts:262-266 | every mask lookup is issued in order; the result has one entry per selector; it fails exactly when some lookup throws or the page is null |
| Executor.MaskOnPage | src/executor.ts:262-266 | on a page, one lookup per selector is issued, in selector order, and a success holds one entry per selector |
| Executor.MaskOutcome | src/executor.ts:262-266 | the mask lookups fail exactly when one of the selector lookups throws, and then with the error of the first lookup in list order that threw; otherwise there is one entry per selector, each what its selector's lookup returned |
| Executor.Sanitize | src/executor.ts:272 | the timestamp keeps its length, with every ':' and '.' replaced by '-' |
| Executor.SanitizedHasNoSeparators | src/executor.ts:272 | the sanitized timestamp holds no ':' or '.', and every other character is kept |
| Executor.FileName | src/executor.ts:272-273 | the file name is the screenshot name ("undefined" when unnamed), a dash, the timestamp with every ':' and '.' turned into '-' and all other characters kept, and ".png" |
| Executor.KeyOfIsInjective | src/executor.ts:286 | distinct screenshot names are stored under distinct keys, and an unnamed screenshot does not collide with one named "undefined" |
| Executor.HandleScreenshot | src/executor.ts:239-314 | it succeeds exactly when the page exists, the element lookup (if a selector is given) found an element, every mask lookup succeeded, and the capture with those options and the write of its bytes succeeded; a missing element gives "Element not found"; every other error is "Screenshot failed: " and the message of the first step that threw: the element lookup, then the first mask lookup, then the capture, then the write (on a null page, the TypeError of the first page access); on any error the registry is unchanged and no notification is sent; on success the captured bytes were written to the named file, then the list change was notified, the reply is the path and the base64 of those bytes, and the registry stores that image under the name |
| Executor.MaskThenSave | src/executor.ts:262-314 | after the element lookup, it succeeds exactly when the page exists, every mask lookup succeeded, and the capture given the element and the found masks and the write of its bytes succeeded; the write, the notification and the registry update follow as for the whole handler; a failure is "Screenshot failed: " and the error of the first mask lookup that threw, else of the capture, else of the write |
| Executor.SaveShot | src/executor.ts:268-313 | it succeeds exactly when the page exists and both the capture with the given options and the write of its bytes to the named file succeed; a success notified the list change, replied with the path and image, and stored the image; a failure leaves the registry, sends no notification, and is "Screenshot failed: " and the capture's error, else the write's (on a null page, the TypeError of reading `screenshot`) |
| Executor.RequestFor | src/executor.ts:475-637 | GET and DELETE send headers only when given; POST, PUT and PATCH always send the data, with a JSON content type when headers are missing |
| Executor.BodyText | src/executor.ts:110-127 | a body with a JSON content type is replaced by its pretty-printed form when it parses and passed through when it does not; any other body is passed through |
| Executor.HandleApi | src/executor.ts:475-637 | one request is sent; a failure gives "METHOD request failed: "; success gives the status line, then the body for every method except DELETE |
| Executor.MethodIsSpelledByName | src/executor.ts:172-185 | every HTTP tool sends the method its name spells after `api_` |
| Executor.DeleteRepliesWithStatusOnly | src/executor.ts:611-637 | a successful DELETE answers with the status line alone and is not an error |
| Executor.BrowserHandler | src/executor.ts:151-170 | only a successful screenshot changes the registry, which stays well formed; every handler replies with content and makes only page, file and notification calls |
| Executor.ExecuteToolCall | src/executor.ts:129-209 | an unknown name gives "Unknown tool" and no calls; an API tool leaves the session alone and first builds a client for the url; a browser tool first acquires the session, and a failure there becomes "Tool execution error: "; the log is untouched, the registry changes only on a successful screenshot, and the state stays consistent |
| Executor.BrowserStep | src/executor.ts:141-170 | a browser tool acquires the session first; a failure there becomes the tool error with no further call; otherwise the tool's handler runs on the page and its calls follow the acquisition's |
| Executor.ApiStep | src/executor.ts:145-185 | an HTTP tool builds a client for the url, then sends one request with the method its name spells, and its reply is the handler's; a client failure becomes the tool error |
| Executor.HandlerRunsPageActions | src/executor.ts:211-417 | navigate, click, fill, select and hover issue exactly their page actions in order, stopping at the first failure, and report an error exactly when one fails |
| Executor.PageToolRunsItsActions | src/executor.ts:141-167 | a page tool whose session is acquired makes the acquisition's calls and then exactly its page actions, and fails exactly when one of them fails |
| Executor.EvaluateToolRunsScript | src/executor.ts:169-170 | an evaluate call with an acquired page runs the given script once and fails exactly when it throws |
| Executor.ApiToolSends | src/executor.ts:145-185 | every HTTP tool name builds a client for the url and sends one request with its own method, its reply being that handler's |
| Executor.PostWithoutHeadersSendsJson | src/executor.ts:506-513 | `api_post` without headers sends its data with the JSON content type |
| Executor.ScreenshotCallStores | src/executor.ts:154-155 | a successful screenshot call replies with two blocks, the second an image, and stores that image's data under the name |
| Executor.StrandedSessionFails | src/executor.ts:65-102 | once a launch has stored a browser but no page, every browser tool fails without any call and without relaunching |
| Executor.NullPageFails | src/executor.ts:211-446 | every browser handler given a null page fails on its first page access, before making any call, and leaves the registry alone |
| Resources.ScreenshotResources | src/handlers.ts:21-28 | one entry per registry key, in key order |
| Resources.ListResources | src/handlers.ts:12-30 | the log resource first, then one screenshot resource per registry key, in insertion order |
| Resources.SchemeOccursFirst | src/handlers.ts:45 | the first "://" of a `screenshot://` uri is the scheme's own |
| Resources.NameInUri | src/handlers.ts:45 | the name read from a `screenshot://` uri is the rest of the uri when it holds no further "://", and otherwise only the part before the next "://" |
| Resources.ReadResource | src/handlers.ts:32-59 | the log uri gives the newline-joined log; a `screenshot://` uri is served exactly when a non-empty image is stored under the second piece of its split, and then with that image; every failure is "Resource not found: " plus the uri |
| Resources.ReadResourceIntended | src/handlers.ts:32-59 | the same handler with the whole rest of the uri as the name |
| Resources.ListedScreenshotsReadBack | src/handlers.ts:21-59 | every listed named screenshot with data reads back, through the corrected handler, as its stored data |
| Resources.ReadAgreesWithoutSeparator | src/handlers.ts:44-47 | when the name part holds no "://", the handler as written and the corrected handler agree |
| Resources.SeparatorInNameIsUnreadable | src/handlers.ts:45 | a screenshot named `a://b` is listed, but the handler as written looks up `a` and fails; the corrected handler finds it |
| Resources.SeparatorExample | src/handlers.ts:45 | a registry holding only "a://b" cannot read `screenshot://a://b` |
| Resources.LogsReadBack | src/handlers.ts:34-41 | the log resource splits back into exactly the captured lines when no line holds a newline |
| Resources.HandleRequest | src/handlers.ts:11-72 | listing and reading change nothing and make no call; a tool call answers with a tool result; a console message appends its line to the log while a page exists and is otherwise unheard; the state stays consistent and the log only grows |
| Resources.Hear | src/executor.ts:96-99 | a console line reaches the log only while a page is open, as `[type] text` appended at the end; without a page nothing changes |
| Resources.CallTool | src/handlers.ts:65-71 | a tool call keeps the session consistent and never removes a log line |
| Resources.CallToolRuns | src/handlers.ts:65-71 | a tool request is answered by running the tool with its arguments, or with `{}` when it carries none |
| Resources.Serve | src/handlers.ts:11-72 | a run gives one reply per request |
| Resources.ServeAnswers | src/handlers.ts:11-72 | the i-th reply of a run is the answer to the i-th request, in the state the earlier requests left |
| Resources.ServeKeepsConsistent | src/handlers.ts:11-72 | any run of requests keeps the session consistent |
| Resources.LogIsAppendOnly | src/executor.ts:96-99 | across any run the earlier log lines stay, in order |
| Resources.ListingTwiceAgrees | src/handlers.ts:12-30 | listing twice in a row gives the same answer and state |
| Resources.StoredScreenshotIsListed | src/handlers.ts:21-59 | a stored screenshot is listed under its uri, and non-empty data reads back through the corrected handler |
| Resources.ScreenshotIsListed | src/executor.ts:286-289 | after a successful named screenshot, the image is listed and reads back through the corrected handler as the data the call returned |

## Left out

- Playwright, the file system, the HTTP client, base64, JSON pretty-printing and the clock are
  parameters of `World`. They are not modelled. The directory creation before the write
  (src/executor.ts:275-278) is left out.
- The SIGINT and SIGTERM handlers and `process.exit` are left out.
- The server's transport, its name and version, and `startServer` are left out.
- Concurrency is left out. Requests are handled one at a time, and a console message arrives
  between requests. The order of concurrent mask lookups is fixed to list order, and the first
  failing lookup's message stands for the rejection of `Promise.all`.
- `parseInt`, `parseFloat` and number printing are opaque functions (`NumberSyntax`).
- The settings-file write is reduced to the value handed to it. A failing write, or a failing
  `JSON.stringify`, is not modelled.
- The viewport settings written by `parseArgs` are not read back by `initBrowser`, which always
  uses 1920x1080. The model keeps that behaviour.
- Text.Lower: only ASCII letters are lowered, not the full Unicode case mapping of `toLowerCase`.
- Executor.Args: arguments are typed as the schemas declare them. A non-string selector, a
  non-array mask and other ill-typed arguments are not modelled. A `mask` that is not an array is
  treated as absent, as the source does.
- Executor.HandleEvaluate: the wrapping script's rendering of its result (src/executor.ts:421-446)
  is given by the `World`, as the rendered text and the captured lines.
- Executor.HandleScreenshot: the `server.notification` promise is recorded as a call but not
  awaited, as in the source. A failing notification is not modelled.
- Resources.ReadResource: the uri is taken as a string. `request.params.uri.toString()` is the
  identity on strings.
- Resources.HandleRequest: the list-tools handler returns the catalogue that `registerTools()`
  builds at start-up, not a copy passed in by the caller.

## Findings

| source | as written | input that shows it | evidently intended | confidence | as-written member | corrected member |
|---|---|---|---|---|---|---|
| src/handlers.ts:45 | the name of a `screenshot://` uri is `uri.split("://")[1]`, the text between the first and the second "://" | a screenshot saved with the name `a://b` is listed as `screenshot://a://b`, but reading that uri looks up `a` and answers "Resource not found" | the name is everything after the `screenshot://` prefix, so every listed screenshot reads back | not executed | Resources.SeparatorInNameIsUnreadable | Resources.ListedScreenshotsReadBack |

=== FILE: capabilities.dfy ===
/**
 * Everything the adapter asks of code outside it: the browser engine and its pages, the HTTP client,
 * the filesystem, the clock, the process environment and the settings file, and a few library
 * functions (base64, path joining, JSON pretty-printing). Each external call is a function of its
 * arguments that either returns a value or throws (`Outcome`). The calls that actually reach a
 * capability are recorded, in order, as `Call`s.
 */
module Capabilities {
  import opened Wrappers
  import Settings

  /** An opaque reference to a browser, context, page, element or request context. */
  type Handle = nat

  type Bytes = seq<bv8>

  datatype Engine = Chromium | Firefox | Webkit

  /** The options of `browserType.launch`. */
  datatype LaunchOptions = LaunchOptions(engine: Engine, headless: bool, channel: Option<string>)

  /** The options of `browser.newContext`. */
  datatype ContextOptions = ContextOptions(width: int, height: int, deviceScaleFactor: int)

  /** The page operations that produce no value. */
  datatype PageAction =
    | Goto(url: Option<string>, timeout: int, waitUntil: string)
    | Click(selector: Option<string>)
    | WaitFor(selector: Option<string>)
    | FillIn(selector: Option<string>, value: Option<string>)
    | SelectOption(selector: Option<string>, value: Option<string>)
    | HoverOver(selector: Option<string>)

  /** The options of `page.screenshot` (always PNG). */
  datatype CaptureOptions = CaptureOptions(fullPage: bool, element: Option<Handle>, mask: Option<seq<Option<Handle>>>)

  /** What the in-page evaluation returns: the result as `JSON.stringify(result, null, 2)` renders
      it, and the console lines captured while the script ran. */
  datatype Evaluation = Evaluation(rendered: string, logs: seq<string>)

  datatype Method = GET | POST | PUT | PATCH | DELETE

  /** The second argument of an HTTP request: `undefined`, `{headers}`, or `{data, headers}`. */
  datatype RequestOptions =
    | NoOptions
    | HeadersOnly(headers: map<string, string>)
    | WithBody(data: Option<string>, headers: map<string, string>)

  datatype Response = Response(status: nat, headers: map<string, string>, body: string)

  /** A call that reached a capability. */
  datatype Call =
    | Launch(launch: LaunchOptions)
    | NewContext(browser: Handle, options: ContextOptions)
    | NewPage(context: Handle)
    | Close(closed: Handle)
    | Act(page: Handle, action: PageAction)
    | Query(page: Handle, selector: string)
    | Capture(page: Handle, capture: CaptureOptions)
    | Evaluate(page: Handle, script: Option<string>)
    | WriteFile(path: string, bytes: Bytes)
    | Notify(notification: string)
    | NewRequestContext(baseUrl: Option<string>)
    | Send(client: Handle, verb: Method, url: Option<string>, request: RequestOptions)

  /** The surroundings of one call. */
  datatype World = World(
    env: map<string, string>,
    config: Settings.Persisted,
    launch: LaunchOptions -> Outcome<Handle>,
    newContext: (Handle, ContextOptions) -> Outcome<Handle>,
    newPage: Handle -> Outcome<Handle>,
    close: Handle -> Outcome<Unit>,
    act: (Handle, PageAction) -> Outcome<Unit>,
    query: (Handle, string) -> Outcome<Option<Handle>>,
    capture: (Handle, CaptureOptions) -> Outcome<Bytes>,
    evaluate: (Handle, Option<string>) -> Outcome<Evaluation>,
    writeFile: (string, Bytes) -> Outcome<Unit>,
    newRequestContext: Option<string> -> Outcome<Handle>,
    send: (Handle, Method, Option<string>, RequestOptions) -> Outcome<Response>,
    base64: Bytes -> string,
    joinPath: (string, string) -> string,
    downloads: string,
    now: string,
    prettyJson: string -> Option<string>)
}

=== FILE: catalogue.dfy ===
/**
 * The static tool catalogue (src/tools.ts): the two name lists that decide how a call is routed,
 * the closed set of tools the dispatcher's switch knows, and the twelve tool definitions with their
 * argument schemas.
 */
module Catalogue {
  import opened Wrappers

  /** The cases of the dispatcher's switch (src/executor.ts:149-186). */
  datatype Tool =
    | Navigate | Screenshot | Click | Fill | Select | Hover | Evaluate
    | ApiGet | ApiPost | ApiPut | ApiPatch | ApiDelete
  {
    predicate IsBrowserTool() {
      Navigate? || Screenshot? || Click? || Fill? || Select? || Hover? || Evaluate?
    }
  }

  function Name(t: Tool): string {
    match t
    case Navigate => "browser_navigate"
    case Screenshot => "browser_screenshot"
    case Click => "browser_click"
    case Fill => "browser_fill"
    case Select => "browser_select"
    case Hover => "browser_hover"
    case Evaluate => "browser_evaluate"
    case ApiGet => "api_get"
    case ApiPost => "api_post"
    case ApiPut => "api_put"
    case ApiPatch => "api_patch"
    case ApiDelete => "api_delete"
  }

  /** `BROWSER_TOOLS`: the names whose call first acquires the browser session. */
  function BrowserTools(): (names: seq<string>)
    ensures |names| == 7
  {
    [Name(Navigate), Name(Screenshot), Name(Click), Name(Fill), Name(Select), Name(Hover), Name(Evaluate)]
  }

  /** `API_TOOLS`: the names whose call first builds an HTTP request context. */
  function ApiTools(): (names: seq<string>)
    ensures |names| == 5
  {
    [Name(ApiGet), Name(ApiPost), Name(ApiPut), Name(ApiPatch), Name(ApiDelete)]
  }

  /** No name is in both lists, and neither list repeats a name. */
  lemma ToolListsAreDisjoint()
    ensures forall n :: n in BrowserTools() ==> n !in ApiTools()
    ensures forall i, j :: 0 <= i < j < |BrowserTools()| ==> BrowserTools()[i] != BrowserTools()[j]
    ensures forall i, j :: 0 <= i < j < |ApiTools()| ==> ApiTools()[i] != ApiTools()[j]
  {
  }

  /** Distinct tools have distinct names. */
  lemma NameIsInjective(a: Tool, b: Tool)
    ensures Name(a) == Name(b) ==> a == b
  {
  }

  /** The switch of src/executor.ts:149-186: which case, if any, a name selects. */
  function ParseTool(name: string): (r: Option<Tool>)
    ensures r.Some? ==> Name(r.value) == name
    ensures r.None? <==> name !in BrowserTools() && name !in ApiTools()
  {
    if name == "browser_navigate" then Some(Navigate)
    else if name == "browser_screenshot" then Some(Screenshot)
    else if name == "browser_click" then Some(Click)
    else if name == "browser_fill" then Some(Fill)
    else if name == "browser_select" then Some(Select)
    else if name == "browser_hover" then Some(Hover)
    else if name == "browser_evaluate" then Some(Evaluate)
    else if name == "api_get" then Some(ApiGet)
    else if name == "api_post" then Some(ApiPost)
    else if name == "api_put" then Some(ApiPut)
    else if name == "api_patch" then Some(ApiPatch)
    else if name == "api_delete" then Some(ApiDelete)
    else None
  }

  /** Every tool's name selects that tool's case of the switch. */
  lemma ParseName(t: Tool)
    ensures ParseTool(Name(t)) == Some(t)
  {
    NameIsInjective(ParseTool(Name(t)).value, t);
  }

  /** How `executeToolCall` classifies a name before dispatching (src/executor.ts:135-147). */
  datatype Route = BrowserRoute | ApiRoute | UnknownRoute

  function Classify(name: string): (r: Route)
    ensures r == BrowserRoute <==> ParseTool(name).Some? && ParseTool(name).value.IsBrowserTool()
    ensures r == ApiRoute <==> ParseTool(name).Some? && !ParseTool(name).value.IsBrowserTool()
    ensures r == UnknownRoute <==> ParseTool(name).None?
  {
    if name in BrowserTools() then BrowserRoute
    else if name in ApiTools() then ApiRoute
    else UnknownRoute
  }

  /** The JSON-schema types the catalogue declares for arguments. */
  datatype JsonType = StringType | NumberType | BooleanType | ArrayOf(items: JsonType) | StringMap

  /** The argument names that occur in the catalogue. */
  datatype Field =
    | Url | Timeout | WaitUntil | ShotName | Selector | FullPage | Mask | SavePath | Value | Script | Headers | Data

  function FieldName(f: Field): string {
    match f
    case Url => "url"
    case Timeout => "timeout"
    case WaitUntil => "waitUntil"
    case ShotName => "name"
    case Selector => "selector"
    case FullPage => "fullPage"
    case Mask => "mask"
    case SavePath => "savePath"
    case Value => "value"
    case Script => "script"
    case Headers => "headers"
    case Data => "data"
  }

  /** One declared argument; `choices` is the schema's `enum`, when it has one. */
  datatype Property = Property(name: Field, kind: JsonType, description: string, choices: Option<seq<string>>)

  /** An `inputSchema` of `type: "object"`. */
  datatype Schema = Schema(properties: seq<Property>, required: seq<Field>)

  /** A catalogue entry; its `name` is the tool's name. */
  datatype ToolDef = ToolDef(tool: Tool, description: string, inputSchema: Schema) {
    function name(): string {
      Name(tool)
    }
  }

  /** Some property in `props` is named `q`. */
  predicate Declares(props: seq<Property>, q: Field) {
    |props| > 0 && (props[0].name == q || Declares(props[1..], q))
  }

  /** Every required name is a declared property. */
  predicate WellFormed(s: Schema) {
    forall q :: q in s.required ==> Declares(s.properties, q)
  }

  function Plain(name: Field, kind: JsonType, description: string): Property {
    Property(name, kind, description, None)
  }

  const WaitConditions: seq<string> := ["load", "domcontentloaded", "networkidle", "commit"]

  function NavigateDef(): (d: ToolDef)
    ensures d.tool == Navigate && d.inputSchema.required == [Url] && WellFormed(d.inputSchema)
  {
    ToolDef(Navigate, "Navigate to a specific URL",
      Schema([Plain(Url, StringType, "URL to navigate to"),
              Plain(Timeout, NumberType, "Navigation timeout in milliseconds"),
              Property(WaitUntil, StringType, "Navigation wait criteria", Some(WaitConditions))],
             [Url]))
  }

  function ScreenshotDef(): (d: ToolDef)
    ensures d.tool == Screenshot && d.inputSchema.required == [ShotName] && WellFormed(d.inputSchema)
  {
    ToolDef(Screenshot, "Capture a screenshot of the current page or a specific element",
      Schema([Plain(ShotName, StringType, "Identifier for the screenshot"),
              Plain(Selector, StringType, "CSS selector for element to capture"),
              Plain(FullPage, BooleanType, "Capture full page height"),
              Plain(Mask, ArrayOf(StringType), "Selectors for elements to mask"),
              Plain(SavePath, StringType, "Path to save screenshot (default: user's Downloads folder)")],
             [ShotName]))
  }

  function SelectorDef(name: Tool, description: string, selectorText: string): (d: ToolDef)
    ensures d.tool == name && WellFormed(d.inputSchema)
  {
    ToolDef(name, description, Schema([Plain(Selector, StringType, selectorText)], [Selector]))
  }

  function SelectorValueDef(name: Tool, description: string, selectorText: string, valueText: string): (d: ToolDef)
    ensures d.tool == name && WellFormed(d.inputSchema)
  {
    ToolDef(name, description,
      Schema([Plain(Selector, StringType, selectorText), Plain(Value, StringType, valueText)],
             [Selector, Value]))
  }

  function EvaluateDef(): (d: ToolDef)
    ensures d.tool == Evaluate && WellFormed(d.inputSchema)
  {
    ToolDef(Evaluate, "Execute JavaScript in the browser context",
      Schema([Plain(Script, StringType, "JavaScript code to execute")], [Script]))
  }

  const UrlProperty := Plain(Url, StringType, "API endpoint URL")
  const HeadersProperty := Plain(Headers, StringMap, "Request headers")
  const DataProperty := Plain(Data, StringType, "Request body data (JSON string)")

  /** `api_get` and `api_delete`: a URL and optional headers. */
  function BodilessDef(name: Tool, description: string): (d: ToolDef)
    ensures d.tool == name && d.inputSchema.required == [Url] && WellFormed(d.inputSchema)
  {
    ToolDef(name, description, Schema([UrlProperty, HeadersProperty], [Url]))
  }

  /** `api_post`, `api_put` and `api_patch`: a URL, a body and optional headers. */
  function BodyDef(name: Tool, description: string): (d: ToolDef)
    ensures d.tool == name && d.inputSchema.required == [Url, Data] && WellFormed(d.inputSchema)
  {
    ToolDef(name, description, Schema([UrlProperty, DataProperty, HeadersProperty], [Url, Data]))
  }

  /** The tools in catalogue order. */
  const AllTools: seq<Tool> :=
    [Navigate, Screenshot, Click, Fill, Select, Hover, Evaluate, ApiGet, ApiPost, ApiPut, ApiPatch, ApiDelete]

  function DefNames(defs: seq<ToolDef>): seq<string> {
    seq(|defs|, i requires 0 <= i < |defs| => defs[i].name())
  }

  /** The definition `registerTools()` lists for each tool. */
  function Definition(t: Tool): (d: ToolDef)
    ensures d.tool == t
    ensures WellFormed(d.inputSchema)
    ensures t == ApiPost || t == ApiPut || t == ApiPatch ==> d.inputSchema.required == [Url, Data]
    ensures t == ApiGet || t == ApiDelete ==> d.inputSchema.required == [Url]
  {
    if t.IsBrowserTool() then BrowserDefinition(t) else ApiDefinition(t)
  }

  /** The seven browser tool definitions (src/tools.ts:22-115). */
  function BrowserDefinition(t: Tool): (d: ToolDef)
    requires t.IsBrowserTool()
    ensures d.tool == t && WellFormed(d.inputSchema)
  {
    match t
    case Navigate => NavigateDef()
    case Screenshot => ScreenshotDef()
    case Click => SelectorDef(Click, "Click an element on the page", "CSS selector for element to click")
    case Fill =>
      SelectorValueDef(Fill, "Fill a form input with text",
        "CSS selector for input field", "Text to enter in the field")
    case Select =>
      SelectorValueDef(Select, "Select an option from a dropdown menu",
        "CSS selector for select element", "Value or label to select")
    case Hover => SelectorDef(Hover, "Hover over an element on the page", "CSS selector for element to hover over")
    case Evaluate => EvaluateDef()
  }

  /** The five HTTP tool definitions (src/tools.ts:116-199). */
  function ApiDefinition(t: Tool): (d: ToolDef)
    requires !t.IsBrowserTool()
    ensures d.tool == t && WellFormed(d.inputSchema)
    ensures t == ApiPost || t == ApiPut || t == ApiPatch ==> d.inputSchema.required == [Url, Data]
    ensures t == ApiGet || t == ApiDelete ==> d.inputSchema.required == [Url]
  {
    match t
    case ApiGet => BodilessDef(ApiGet, "Perform a GET request to an API endpoint")
    case ApiPost => BodyDef(ApiPost, "Perform a POST request to an API endpoint")
    case ApiPut => BodyDef(ApiPut, "Perform a PUT request to an API endpoint")
    case ApiPatch => BodyDef(ApiPatch, "Perform a PATCH request to an API endpoint")
    case ApiDelete => BodilessDef(ApiDelete, "Perform a DELETE request to an API endpoint")
  }

  /** `registerTools()`: the catalogue returned by list-tools, browser tools first. */
  function RegisterTools(): seq<ToolDef> {
    seq(|AllTools|, i requires 0 <= i < |AllTools| => Definition(AllTools[i]))
  }

  /** The position of each tool in catalogue order. */
  function Index(t: Tool): (i: nat)
    ensures i < |AllTools| && AllTools[i] == t
  {
    match t
    case Navigate => 0
    case Screenshot => 1
    case Click => 2
    case Fill => 3
    case Select => 4
    case Hover => 5
    case Evaluate => 6
    case ApiGet => 7
    case ApiPost => 8
    case ApiPut => 9
    case ApiPatch => 10
    case ApiDelete => 11
  }

  /** The catalogue has twelve definitions with pairwise distinct names: the browser list, then the API list. */
  lemma RegisteredNames()
    ensures |RegisterTools()| == 12
    ensures forall i, j :: 0 <= i < j < |RegisterTools()| ==> RegisterTools()[i].name() != RegisterTools()[j].name()
  {
    var defs := RegisterTools();
    forall i, j | 0 <= i < j < |defs|
      ensures defs[i].name() != defs[j].name()
    {
      assert Index(AllTools[i]) == i && Index(AllTools[j]) == j;
      NameIsInjective(AllTools[i], AllTools[j]);
    }
  }

  /** Each tool's name sits at the tool's catalogue position in `BROWSER_TOOLS` followed by `API_TOOLS`. */
  lemma NamePositions(t: Tool)
    ensures (BrowserTools() + ApiTools())[Index(t)] == Name(t)
  {
  }

  /** The registered names are exactly `BROWSER_TOOLS` followed by `API_TOOLS`. */
  lemma RegisteredNamesAreToolLists()
    ensures DefNames(RegisterTools()) == BrowserTools() + ApiTools()
  {
    var names := DefNames(RegisterTools());
    var lists := BrowserTools() + ApiTools();
    forall i | 0 <= i < |names|
      ensures names[i] == lists[i]
    {
      RegisteredNameAt(i);
      ListedNameAt(i);
    }
  }

  lemma RegisteredNameAt(i: nat)
    requires i < |AllTools|
    ensures DefNames(RegisterTools())[i] == Name(AllTools[i])
  {
    assert RegisterTools()[i].tool == AllTools[i];
  }

  lemma ListedNameAt(i: nat)
    requires i < |AllTools|
    ensures (BrowserTools() + ApiTools())[i] == Name(AllTools[i])
  {
    NamePositions(AllTools[i]);
    assert Index(AllTools[i]) == i;
  }

  /** Every registered name has a case in the dispatcher's switch. */
  lemma RegisteredNamesDispatch()
    ensures forall i :: 0 <= i < |RegisterTools()| ==> ParseTool(RegisterTools()[i].name()) == Some(AllTools[i])
  {
    forall i | 0 <= i < |RegisterTools()|
      ensures ParseTool(RegisterTools()[i].name()) == Some(AllTools[i])
    {
      ParseName(AllTools[i]);
    }
  }

  /** The navigate tool's wait condition is one of exactly four values. */
  lemma WaitUntilChoices()
    ensures RegisterTools()[0].name() == "browser_navigate"
    ensures exists p :: p in RegisterTools()[0].inputSchema.properties && p.name == WaitUntil &&
              p.choices == Some(["load", "domcontentloaded", "networkidle", "commit"])
  {
    assert RegisterTools()[0].inputSchema.properties[2].name == WaitUntil;
  }

  /** Every schema in the catalogue declares each of its required names; the HTTP tools with a body
      require exactly `url` and `data`, the others exactly `url`. */
  lemma RegisteredSchemas()
    ensures forall i :: 0 <= i < |RegisterTools()| ==> WellFormed(RegisterTools()[i].inputSchema)
    ensures forall i :: 0 <= i < |RegisterTools()| && RegisterTools()[i].tool in {ApiPost, ApiPut, ApiPatch} ==>
              RegisterTools()[i].inputSchema.required == [Url, Data]
    ensures forall i :: 0 <= i < |RegisterTools()| && RegisterTools()[i].tool in {ApiGet, ApiDelete} ==>
              RegisterTools()[i].inputSchema.required == [Url]
  {
    forall i | 0 <= i < |RegisterTools()|
      ensures WellFormed(RegisterTools()[i].inputSchema)
      ensures RegisterTools()[i].tool in {ApiPost, ApiPut, ApiPatch} ==> RegisterTools()[i].inputSchema.required == [Url, Data]
      ensures RegisterTools()[i].tool in {ApiGet, ApiDelete} ==> RegisterTools()[i].inputSchema.required == [Url]
    {
    }
  }
}


=== FILE: executor.dfy ===
/**
 * Tool execution (src/executor.ts:104-637): routing a tool call by name, acquiring the browser
 * session for browser tools or a request client for API tools, and turning what each handler
 * observes into the result envelope the agent sees.
 */
module Executor {
  import opened Wrappers
  import opened Text
  import Registry
  import opened Capabilities
  import opened Session
  import Catalogue

  /** A block of a tool result. */
  datatype Content = Text(text: string) | Image(data: string, mimeType: string)

  /** The `{content, isError}` envelope of a tool result. */
  datatype CallResult = CallResult(content: seq<Content>, isError: bool)

  /** The arguments of a tool call as the schemas declare them; None stands for a missing field. */
  datatype Args = Args(
    url: Option<string>,
    timeout: Option<int>,
    waitUntil: Option<string>,
    name: Option<string>,
    selector: Option<string>,
    fullPage: Option<bool>,
    mask: Option<seq<string>>,
    savePath: Option<string>,
    value: Option<string>,
    script: Option<string>,
    headers: Option<map<string, string>>,
    data: Option<string>)

  /** The empty arguments object `{}`. */
  const NoArgs := Args(None, None, None, None, None, None, None, None, None, None, None, None)

  /** A string argument is truthy when present and non-empty. */
  predicate Given(o: Option<string>) {
    o.Some? && o.value != ""
  }

  /** How a template literal renders a string argument: a missing one reads "undefined". */
  function Show(o: Option<string>): string {
    o.GetOr("undefined")
  }

  /** The message of the TypeError raised by calling method `member` on a null page. */
  function NullPageError(member: string): string {
    "Cannot read properties of null (reading '" + member + "')"
  }

  /** The envelope of an error that escaped the dispatch (src/executor.ts:198-207). */
  function ToolError(message: string): CallResult {
    CallResult([Text("Tool execution error: " + message)], true)
  }

  /** The envelope of an error a handler caught: one text block, its prefix, then the message. */
  function Failure(prefix: string, message: string): CallResult {
    CallResult([Text(prefix + message)], true)
  }

  /** The calls a browser handler may make: page operations, the file write and the notification,
      never a launch or a new context or page. */
  predicate HandlerCall(c: Call) {
    c.Act? || c.Query? || c.Capture? || c.Evaluate? || c.WriteFile? || c.Notify?
  }

  /** The outcome of a piece of work and the calls it made. */
  datatype Attempt<T> = Attempt(outcome: Outcome<T>, calls: seq<Call>)

  /** A handler's result, the screenshot registry after it, and the calls it made. */
  datatype Handled = Handled(result: CallResult, screenshots: Registry.Registry, calls: seq<Call>)

  /** A page action without a value, `member` naming the page method; a null page throws before any
      call reaches the browser. */
  function Perform(w: World, page: Option<Handle>, member: string, action: PageAction): (a: Attempt<Unit>)
    ensures page.None? ==> a == Attempt(Err(NullPageError(member)), [])
    ensures page.Some? ==> a == Attempt(w.act(page.value, action), [Act(page.value, action)])
  {
    match page
    case None => Attempt(Err(NullPageError(member)), [])
    case Some(p) => Attempt(w.act(p, action), [Act(p, action)])
  }

  /** `page.waitForSelector(selector)` and then the action, which runs only if the wait succeeded. */
  function WaitThenPerform(w: World, page: Option<Handle>, selector: Option<string>, member: string, action: PageAction): (a: Attempt<Unit>)
    ensures a.outcome.Ok? <==> page.Some? && w.act(page.value, WaitFor(selector)).Ok? && w.act(page.value, action).Ok?
    ensures page.None? ==> a == Attempt(Err(NullPageError("waitForSelector")), [])
    ensures page.Some? ==> a.calls == [Act(page.value, WaitFor(selector))] + (if w.act(page.value, WaitFor(selector)).Ok? then [Act(page.value, action)] else [])
    ensures a.outcome.Err? && page.Some? ==>
              a.outcome.message == (if w.act(page.value, WaitFor(selector)).Err? then w.act(page.value, WaitFor(selector)) else w.act(page.value, action)).message
  {
    var wait := Perform(w, page, "waitForSelector", WaitFor(selector));
    if wait.outcome.Err? then wait
    else
      var act := Perform(w, page, member, action);
      Attempt(act.outcome, wait.calls + act.calls)
  }

  /** The message a failed wait-then-act handler reports: with no page, the wait is the first member
      read from null; otherwise the wait's error if it threw, else the action's. */
  function WaitedFailure(w: World, page: Option<Handle>, selector: Option<string>, action: PageAction): string
    requires !(page.Some? && w.act(page.value, WaitFor(selector)).Ok? && w.act(page.value, action).Ok?)
  {
    if page.None? then NullPageError("waitForSelector")
    else if w.act(page.value, WaitFor(selector)).Err? then w.act(page.value, WaitFor(selector)).message
    else w.act(page.value, action).message
  }

  /** The envelope of a handler that reports one line on success and `prefix` + message on failure. */
  function Report(a: Attempt<Unit>, success: string, prefix: string, reg: Registry.Registry): (h: Handled)
    ensures h.screenshots == reg && h.calls == a.calls && |h.result.content| == 1
    ensures h.result.isError <==> a.outcome.Err?
    ensures h.result.content[0] == Text(if a.outcome.Ok? then success else prefix + a.outcome.message)
  {
    match a.outcome
    case Ok(_) => Handled(CallResult([Text(success)], false), reg, a.calls)
    case Err(m) => Handled(Failure(prefix, m), reg, a.calls)
  }

  /** `args.timeout || 30000`: zero, like a missing value, selects the default. */
  function TimeoutOf(args: Args): (t: int)
    ensures t != 0
    ensures args.timeout.Some? && args.timeout.value != 0 ==> t == args.timeout.value
    ensures !(args.timeout.Some? && args.timeout.value != 0) ==> t == 30000
  {
    if args.timeout.Some? && args.timeout.value != 0 then args.timeout.value else 30000
  }

  /** `args.waitUntil || "load"`. */
  function WaitUntilOf(args: Args): (u: string)
    ensures u != ""
    ensures Given(args.waitUntil) ==> u == args.waitUntil.value
    ensures !Given(args.waitUntil) ==> u == "load"
  {
    if Given(args.waitUntil) then args.waitUntil.value else "load"
  }

  /** `handleBrowserNavigate` (src/executor.ts:211-237). */
  function HandleNavigate(w: World, page: Option<Handle>, args: Args, reg: Registry.Registry): (h: Handled)
    ensures h.screenshots == reg && |h.result.content| == 1
    ensures h.calls == if page.Some? then [Act(page.value, Goto(args.url, TimeoutOf(args), WaitUntilOf(args)))] else []
    ensures !h.result.isError <==> page.Some? && w.act(page.value, Goto(args.url, TimeoutOf(args), WaitUntilOf(args))).Ok?
    ensures !h.result.isError ==> h.result.content[0] == Text("Navigated to " + Show(args.url))
    ensures h.result.isError ==>
              h.result.content[0] ==
                Text("Navigation failed: " +
                     if page.Some? then w.act(page.value, Goto(args.url, TimeoutOf(args), WaitUntilOf(args))).message else NullPageError("goto"))
  {
    var goto := Goto(args.url, TimeoutOf(args), WaitUntilOf(args));
    Report(Perform(w, page, "goto", goto), "Navigated to " + Show(args.url), "Navigation failed: ", reg)
  }

  /** `handleBrowserClick` (src/executor.ts:316-339): no wait before the click. */
  function HandleClick(w: World, page: Option<Handle>, args: Args, reg: Registry.Registry): (h: Handled)
    ensures h.screenshots == reg && |h.result.content| == 1
    ensures h.calls == if page.Some? then [Act(page.value, Click(args.selector))] else []
    ensures !h.result.isError <==> page.Some? && w.act(page.value, Click(args.selector)).Ok?
    ensures !h.result.isError ==> h.result.content[0] == Text("Clicked element: " + Show(args.selector))
    ensures h.result.isError ==>
              h.result.content[0] ==
                Text("Click failed on " + Show(args.selector) + ": " +
                     if page.Some? then w.act(page.value, Click(args.selector)).message else NullPageError("click"))
  {
    Report(Perform(w, page, "click", Click(args.selector)),
           "Clicked element: " + Show(args.selector), "Click failed on " + Show(args.selector) + ": ", reg)
  }

  /** `handleBrowserFill` (src/executor.ts:341-365). */
  function HandleFill(w: World, page: Option<Handle>, args: Args, reg: Registry.Registry): (h: Handled)
    ensures h.screenshots == reg && |h.result.content| == 1
    ensures !h.result.isError <==> page.Some? && w.act(page.value, WaitFor(args.selector)).Ok? && w.act(page.value, FillIn(args.selector, args.value)).Ok?
    ensures page.Some? ==>
      h.calls == [Act(page.value, WaitFor(args.selector))] +
        (if w.act(page.value, WaitFor(args.selector)).Ok? then [Act(page.value, FillIn(args.selector, args.value))] else [])
    ensures !h.result.isError ==> h.result.content[0] == Text("Filled " + Show(args.selector) + " with: " + Show(args.value))
    ensures h.result.isError ==>
              h.result.content[0] == Text("Fill operation failed on " + Show(args.selector) + ": " + WaitedFailure(w, page, args.selector, FillIn(args.selector, args.value)))
  {
    Report(WaitThenPerform(w, page, args.selector, "fill", FillIn(args.selector, args.value)),
           "Filled " + Show(args.selector) + " with: " + Show(args.value),
           "Fill operation failed on " + Show(args.selector) + ": ", reg)
  }

  /** `handleBrowserSelect` (src/executor.ts:367-391). */
  function HandleSelect(w: World, page: Option<Handle>, args: Args, reg: Registry.Registry): (h: Handled)
    ensures h.screenshots == reg && |h.result.content| == 1
    ensures !h.result.isError <==> page.Some? && w.act(page.value, WaitFor(args.selector)).Ok? && w.act(page.value, SelectOption(args.selector, args.value)).Ok?
    ensures page.Some? ==>
      h.calls == [Act(page.value, WaitFor(args.selector))] +
        (if w.act(page.value, WaitFor(args.selector)).Ok? then [Act(page.value, SelectOption(args.selector, args.value))] else [])
    ensures !h.result.isError ==> h.result.content[0] == Text("Selected option " + Show(args.value) + " in " + Show(args.selector))
    ensures h.result.isError ==>
              h.result.content[0] == Text("Selection failed on " + Show(args.selector) + ": " + WaitedFailure(w, page, args.selector, SelectOption(args.selector, args.value)))
  {
    Report(WaitThenPerform(w, page, args.selector, "selectOption", SelectOption(args.selector, args.value)),
           "Selected option " + Show(args.value) + " in " + Show(args.selector),
           "Selection failed on " + Show(args.selector) + ": ", reg)
  }

  /** `handleBrowserHover` (src/executor.ts:393-417). */
  function HandleHover(w: World, page: Option<Handle>, args: Args, reg: Registry.Registry): (h: Handled)
    ensures h.screenshots == reg && |h.result.content| == 1
    ensures !h.result.isError <==> page.Some? && w.act(page.value, WaitFor(args.selector)).Ok? && w.act(page.value, HoverOver(args.selector)).Ok?
    ensures page.Some? ==>
      h.calls == [Act(page.value, WaitFor(args.selector))] +
        (if w.act(page.value, WaitFor(args.selector)).Ok? then [Act(page.value, HoverOver(args.selector))] else [])
    ensures !h.result.isError ==> h.result.content[0] == Text("Hovered over element: " + Show(args.selector))
    ensures h.result.isError ==>
              h.result.content[0] == Text("Hover failed on " + Show(args.selector) + ": " + WaitedFailure(w, page, args.selector, HoverOver(args.selector)))
  {
    Report(WaitThenPerform(w, page, args.selector, "hover", HoverOver(args.selector)),
           "Hovered over element: " + Show(args.selector), "Hover failed on " + Show(args.selector) + ": ", reg)
  }

  /** `handleBrowserEvaluate` (src/executor.ts:419-473): the script's rendered result, then the
      console lines it produced, newline-joined. */
  function HandleEvaluate(w: World, page: Option<Handle>, args: Args, reg: Registry.Registry): (h: Handled)
    ensures h.screenshots == reg
    ensures !h.result.isError <==> page.Some? && w.evaluate(page.value, args.script).Ok?
    ensures !h.result.isError ==>
              var e := w.evaluate(page.value, args.script).value;
              h.result.content == [Text("Script result: " + e.rendered), Text("Console output:\n" + Join(e.logs, "\n"))]
    ensures h.result.isError ==>
              h.result == Failure("Script execution failed: ",
                                  if page.Some? then w.evaluate(page.value, args.script).message else NullPageError("evaluate"))
  {
    var a := match page
      case None => Attempt(Err(NullPageError("evaluate")), [])
      case Some(p) => Attempt(w.evaluate(p, args.script), [Evaluate(p, args.script)]);
    match a.outcome
    case Err(m) => Handled(Failure("Script execution failed: ", m), reg, a.calls)
    case Ok(e) =>
      Handled(CallResult([Text("Script result: " + e.rendered), Text("Console output:\n" + Join(e.logs, "\n"))], false), reg, a.calls)
  }

  /** `page.$(selector)`: the matching element, or None when nothing matches. */
  function QueryOn(w: World, page: Option<Handle>, selector: string): (a: Attempt<Option<Handle>>)
    ensures page.None? ==> a == Attempt(Err(NullPageError("$")), [])
    ensures page.Some? ==> a == Attempt(w.query(page.value, selector), [Query(page.value, selector)])
  {
    match page
    case None => Attempt(Err(NullPageError("$")), [])
    case Some(p) => Attempt(w.query(p, selector), [Query(p, selector)])
  }

  /** The mask lookups `Promise.all(args.mask.map(s => page.$(s)))`: every lookup is issued, in
      list order; the first one that throws decides the failure. With no page the first lookup
      throws before any is issued. */
  function MaskOn(w: World, page: Option<Handle>, selectors: seq<string>): (a: Attempt<seq<Option<Handle>>>)
    ensures a.outcome.Ok? ==> |a.outcome.value| == |selectors|
    ensures a.outcome.Ok? ==> forall i :: 0 <= i < |selectors| ==> page.Some? && w.query(page.value, selectors[i]) == Ok(a.outcome.value[i])
    ensures a.outcome.Err? <==> |selectors| > 0 && (page.None? || exists i :: 0 <= i < |selectors| && w.query(page.value, selectors[i]).Err?)
    ensures page.Some? ==> |a.calls| == |selectors| && forall i :: 0 <= i < |selectors| ==> a.calls[i] == Query(page.value, selectors[i])
    ensures page.None? ==> a.calls == []
    ensures forall c :: c in a.calls ==> c.Query?
  {
    match page
    case None => if selectors == [] then Attempt(Ok([]), []) else Attempt(Err(NullPageError("$")), [])
    case Some(p) => MaskOnPage(w, p, selectors)
  }

  /** The mask lookups on a page: `map` issues one call per selector, in list order, before any
      of them settles. */
  function MaskOnPage(w: World, page: Handle, selectors: seq<string>): (a: Attempt<seq<Option<Handle>>>)
    ensures a.outcome.Ok? ==> |a.outcome.value| == |selectors|
    ensures |a.calls| == |selectors| && forall i :: 0 <= i < |selectors| ==> a.calls[i] == Query(page, selectors[i])
  {
    Attempt(MaskOutcome(w, page, selectors), seq(|selectors|, i requires 0 <= i < |selectors| => Query(page, selectors[i])))
  }

  /** What `Promise.all` settles to: the first failure in list order, else every element found.
      It fails exactly when one of the lookups throws; otherwise each element found is the one its
      selector's lookup returned. */
  function MaskOutcome(w: World, page: Handle, selectors: seq<string>): (r: Outcome<seq<Option<Handle>>>)
    ensures r.Ok? ==> |r.value| == |selectors|
    ensures r.Ok? ==> forall i :: 0 <= i < |selectors| ==> w.query(page, selectors[i]) == Ok(r.value[i])
    ensures r.Err? <==> exists i :: 0 <= i < |selectors| && w.query(page, selectors[i]).Err?
    ensures r.Err? ==>
              exists i :: 0 <= i < |selectors| && w.query(page, selectors[i]) == Err(r.message) &&
                forall j :: 0 <= j < i ==> w.query(page, selectors[j]).Ok?
    decreases |selectors|
  {
    if selectors == [] then Ok([])
    else
      var first := w.query(page, selectors[0]);
      var rest := MaskOutcome(w, page, selectors[1..]);
      assert forall i :: 1 <= i < |selectors| ==> selectors[1..][i - 1] == selectors[i];
      if first.Err? then Err(first.message)
      else if rest.Err? then
        assert exists i :: 0 <= i < |selectors| && w.query(page, selectors[i]).Err? by {
          var k :| 0 <= k < |selectors[1..]| && w.query(page, selectors[1..][k]).Err?;
          assert w.query(page, selectors[k + 1]).Err?;
        }
        assert exists i :: 0 <= i < |selectors| && w.query(page, selectors[i]) == Err(rest.message) &&
                 forall j :: 0 <= j < i ==> w.query(page, selectors[j]).Ok? by {
          var k :| 0 <= k < |selectors[1..]| && w.query(page, selectors[1..][k]) == Err(rest.message) &&
                   forall j :: 0 <= j < k ==> w.query(page, selectors[1..][j]).Ok?;
          assert w.query(page, selectors[k + 1]) == Err(rest.message);
          assert forall j :: 0 <= j < k + 1 ==> w.query(page, selectors[j]).Ok? by {
            forall j | 0 <= j < k + 1
              ensures w.query(page, selectors[j]).Ok?
            {
              if j > 0 { assert selectors[j] == selectors[1..][j - 1]; }
            }
          }
        }
        Err(rest.message)
      else
        var found := [first.value] + rest.value;
        assert forall i :: 1 <= i < |selectors| ==> found[i] == rest.value[i - 1];
        Ok(found)
  }

  /** The timestamp with every ':' and '.' replaced by '-' (src/executor.ts:272). */
  function Sanitize(s: string): (r: string)
    ensures |r| == |s|
    ensures forall i :: 0 <= i < |s| ==> r[i] == (if s[i] == ':' || s[i] == '.' then '-' else s[i])
  {
    if s == [] then [] else [if s[0] == ':' || s[0] == '.' then '-' else s[0]] + Sanitize(s[1..])
  }

  lemma SanitizedHasNoSeparators(s: string)
    ensures ':' !in Sanitize(s) && '.' !in Sanitize(s)
    ensures forall i :: 0 <= i < |s| && s[i] != ':' && s[i] != '.' ==> Sanitize(s)[i] == s[i]
  {
    var r := Sanitize(s);
    forall i | 0 <= i < |r|
      ensures r[i] != ':' && r[i] != '.'
    {
    }
  }

  /** The file name `${args.name}-${timestamp}.png` (src/executor.ts:273): the name and a dash, then
      the timestamp with its separators replaced, then the extension. */
  function FileName(name: Option<string>, now: string): (f: string)
    ensures |f| == |Show(name)| + 1 + |now| + 4
    ensures f[..|Show(name)| + 1] == Show(name) + "-" && f[|f| - 4..] == ".png"
    ensures var stamp := f[|Show(name)| + 1..|f| - 4];
      && ':' !in stamp && '.' !in stamp
      && (forall i :: 0 <= i < |now| && now[i] != ':' && now[i] != '.' ==> stamp[i] == now[i])
      && (forall i :: 0 <= i < |now| && (now[i] == ':' || now[i] == '.') ==> stamp[i] == '-')
  {
    var prefix := Show(name) + "-";
    var stamp := Sanitize(now);
    SanitizedHasNoSeparators(now);
    var f := prefix + stamp + ".png";
    assert f[..|prefix|] == prefix && f[|f| - 4..] == ".png";
    assert f[|prefix|..|f| - 4] == stamp;
    f
  }

  /** `args.savePath || defaultDownloadsPath`. */
  function SaveDir(args: Args, w: World): string {
    if Given(args.savePath) then args.savePath.value else w.downloads
  }

  /** The registry key `args.name` stands for. */
  function KeyOf(name: Option<string>): (k: Registry.Key)
    ensures k.Named? <==> name.Some?
    ensures k.Named? ==> k.name == name.value
  {
    match name
    case None => Registry.Undefined
    case Some(n) => Registry.Named(n)
  }

  /** Screenshots with different names never share a registry entry, and one saved without a name
      is kept apart from one named "undefined". */
  lemma KeyOfIsInjective(a: Option<string>, b: Option<string>)
    ensures KeyOf(a) == KeyOf(b) <==> a == b
    ensures KeyOf(None) != KeyOf(Some("undefined"))
  {
  }

  const ListChanged := "notifications/resources/list_changed"

  /** A screenshot that went through: the capture of `options` on page `p`, the write of the bytes it
      returned and the list-change notification are the last three calls; the reply and the registry
      carry the base64 of those same bytes. */
  predicate SavedShot(h: Handled, w: World, p: Handle, args: Args, reg: Registry.Registry, options: CaptureOptions) {
    && |h.calls| >= 3
    && h.calls[|h.calls| - 3] == Capture(p, options)
    && h.calls[|h.calls| - 2].WriteFile?
    && h.calls[|h.calls| - 1] == Notify(ListChanged)
    && var c := h.calls[|h.calls| - 2];
    && w.capture(p, options) == Ok(c.bytes)
    && w.writeFile(c.path, c.bytes).Ok?
    && c.path == ShotPath(args, w)
    && h.result == CallResult([Text("Screenshot saved to: " + c.path), Image(w.base64(c.bytes), "image/png")], false)
    && h.screenshots == Registry.Set(reg, KeyOf(args.name), w.base64(c.bytes))
  }

  /** Where a screenshot is written: the file name under the save directory. */
  function ShotPath(args: Args, w: World): string {
    w.joinPath(SaveDir(args, w), FileName(args.name, w.now))
  }

  /** The capture of `options` on page `p` succeeds, and so does the write of its bytes. */
  predicate Saves(w: World, p: Handle, args: Args, options: CaptureOptions) {
    w.capture(p, options).Ok? && w.writeFile(ShotPath(args, w), w.capture(p, options).value).Ok?
  }

  /** The message of a save that did not go through: the capture's, or else the file write's. */
  function SaveFailure(w: World, p: Handle, args: Args, options: CaptureOptions): string
    requires !Saves(w, p, args, options)
  {
    if w.capture(p, options).Err? then w.capture(p, options).message
    else w.writeFile(ShotPath(args, w), w.capture(p, options).value).message
  }

  /** The elements the mask selectors found on page `p`, when a mask was given and every lookup
      succeeded. */
  function MaskFound(w: World, p: Handle, args: Args): Option<seq<Option<Handle>>> {
    if args.mask.Some? && MaskOutcome(w, p, args.mask.value).Ok? then Some(MaskOutcome(w, p, args.mask.value).value) else None
  }

  /** The capture options of a screenshot on page `p`: a full page only when `fullPage` is true, the
      element the selector found (if a selector was given), and the elements of the mask. */
  function ShotOptions(w: World, p: Handle, args: Args): CaptureOptions {
    CaptureOptions(
      args.fullPage == Some(true),
      if Given(args.selector) && w.query(p, args.selector.value).Ok? then w.query(p, args.selector.value).value else None,
      MaskFound(w, p, args))
  }

  /** `handleBrowserScreenshot` (src/executor.ts:239-314). */
  function HandleScreenshot(w: World, page: Option<Handle>, args: Args, reg: Registry.Registry): (h: Handled)
    ensures h.result.isError ==> h.screenshots == reg && |h.result.content| == 1
    ensures h.result.isError ==> forall c :: c in h.calls ==> !c.Notify?
    ensures Given(args.selector) && page.Some? && w.query(page.value, args.selector.value) == Ok(None) ==>
              h.result == CallResult([Text("Element not found: " + args.selector.value)], true) &&
              h.calls == [Query(page.value, args.selector.value)]
    ensures !h.result.isError ==> page.Some? && SavedShot(h, w, page.value, args, reg, ShotOptions(w, page.value, args))
    ensures !h.result.isError && Given(args.selector) ==>
              w.query(page.value, args.selector.value).Ok? && w.query(page.value, args.selector.value).value.Some?
    ensures !h.result.isError && args.mask.Some? ==> MaskOutcome(w, page.value, args.mask.value).Ok?
    ensures forall c :: c in h.calls && c.Capture? ==> c.capture.fullPage == (args.fullPage == Some(true))
    ensures forall c :: c in h.calls ==> HandlerCall(c)
    ensures !h.result.isError <==>
              && page.Some?
              && (Given(args.selector) ==> w.query(page.value, args.selector.value).Ok? && w.query(page.value, args.selector.value).value.Some?)
              && (args.mask.Some? ==> MaskOutcome(w, page.value, args.mask.value).Ok?)
              && Saves(w, page.value, args, ShotOptions(w, page.value, args))
    ensures h.result.isError && page.Some? && !(Given(args.selector) && w.query(page.value, args.selector.value) == Ok(None)) ==>
              h.result == Failure("Screenshot failed: ",
                                  if Given(args.selector) && w.query(page.value, args.selector.value).Err? then
                                    w.query(page.value, args.selector.value).message
                                  else if args.mask.Some? && MaskOutcome(w, page.value, args.mask.value).Err? then
                                    MaskOutcome(w, page.value, args.mask.value).message
                                  else SaveFailure(w, page.value, args, ShotOptions(w, page.value, args)))
    ensures page.None? ==>
              h.result == Failure("Screenshot failed: ",
                                  NullPageError(if Given(args.selector) || (args.mask.Some? && args.mask.value != []) then "$" else "screenshot"))
  {
    var element := if Given(args.selector) then QueryOn(w, page, args.selector.value) else Attempt(Ok(None), []);
    if element.outcome.Err? then
      Handled(Failure("Screenshot failed: ", element.outcome.message), reg, element.calls)
    else if Given(args.selector) && element.outcome.value.None? then
      Handled(CallResult([Text("Element not found: " + args.selector.value)], true), reg, element.calls)
    else
      MaskThenSave(w, page, args, reg, element.outcome.value, element.calls)
  }

  /** The mask lookups of a screenshot and what follows them, once the element lookup that made
      the calls `before` has found `element` (or was not asked for). */
  function MaskThenSave(w: World, page: Option<Handle>, args: Args, reg: Registry.Registry, element: Option<Handle>, before: seq<Call>)
    : (h: Handled)
    requires forall c :: c in before ==> c.Query?
    ensures h.result.isError ==> h.screenshots == reg && |h.result.content| == 1
    ensures h.result.isError ==> forall c :: c in h.calls ==> !c.Notify?
    ensures !h.result.isError ==>
              && page.Some? && (args.mask.Some? ==> MaskOutcome(w, page.value, args.mask.value).Ok?)
              && SavedShot(h, w, page.value, args, reg, CaptureOptions(args.fullPage == Some(true), element, MaskFound(w, page.value, args)))
    ensures forall c :: c in h.calls && c.Capture? ==> c.capture.fullPage == (args.fullPage == Some(true))
    ensures forall c :: c in h.calls ==> HandlerCall(c)
    ensures !h.result.isError <==>
              && page.Some? && (args.mask.Some? ==> MaskOutcome(w, page.value, args.mask.value).Ok?)
              && Saves(w, page.value, args, CaptureOptions(args.fullPage == Some(true), element, MaskFound(w, page.value, args)))
    ensures h.result.isError ==>
              h.result == Failure("Screenshot failed: ",
                                  if page.None? then NullPageError(if args.mask.Some? && args.mask.value != [] then "$" else "screenshot")
                                  else if args.mask.Some? && MaskOutcome(w, page.value, args.mask.value).Err? then
                                    MaskOutcome(w, page.value, args.mask.value).message
                                  else SaveFailure(w, page.value, args, CaptureOptions(args.fullPage == Some(true), element, MaskFound(w, page.value, args))))
  {
    var mask := if args.mask.Some? then MaskOn(w, page, args.mask.value) else Attempt(Ok([]), []);
    var calls := before + mask.calls;
    if mask.outcome.Err? then
      Handled(Failure("Screenshot failed: ", mask.outcome.message), reg, calls)
    else
      var options := CaptureOptions(args.fullPage == Some(true), element,
                                    if args.mask.Some? then Some(mask.outcome.value) else None);
      SaveShot(w, page, args, reg, options, calls)
  }

  /** The capture, the file write, the registry update and the notification of a screenshot, after
      the element and mask lookups that made the calls `before`. */
  function SaveShot(w: World, page: Option<Handle>, args: Args, reg: Registry.Registry, options: CaptureOptions, before: seq<Call>)
    : (h: Handled)
    requires forall c :: c in before ==> c.Query?
    ensures h.result.isError ==> h.screenshots == reg && |h.result.content| == 1
    ensures h.result.isError ==> forall c :: c in h.calls ==> !c.Notify?
    ensures !h.result.isError ==> page.Some? && SavedShot(h, w, page.value, args, reg, options)
    ensures forall c :: c in h.calls && c.Capture? ==> c.capture == options
    ensures forall c :: c in h.calls ==> HandlerCall(c)
    ensures !h.result.isError <==> page.Some? && Saves(w, page.value, args, options)
    ensures h.result.isError ==>
              h.result == Failure("Screenshot failed: ",
                                  if page.Some? then SaveFailure(w, page.value, args, options) else NullPageError("screenshot"))
  {
    var shot := match page
      case None => Attempt(Err(NullPageError("screenshot")), [])
      case Some(p) => Attempt(w.capture(p, options), [Capture(p, options)]);
    if shot.outcome.Err? then
      Handled(Failure("Screenshot failed: ", shot.outcome.message), reg, before + shot.calls)
    else
      var bytes := shot.outcome.value;
      var data := w.base64(bytes);
      var path := ShotPath(args, w);
      var written := before + shot.calls + [WriteFile(path, bytes)];
      match w.writeFile(path, bytes)
      case Err(m) => Handled(Failure("Screenshot failed: ", m), reg, written)
      case Ok(_) =>
        Handled(CallResult([Text("Screenshot saved to: " + path), Image(data, "image/png")], false),
                Registry.Set(reg, KeyOf(args.name), data), written + [Notify(ListChanged)])
  }

  const JsonHeaders := map["Content-Type" := "application/json"]

  /** The request options of the API handlers (src/executor.ts:477, 508-511, 543-546, 578-581, 613):
      GET and DELETE pass headers only when given and nothing otherwise; POST, PUT and PATCH always
      send the data, with the JSON content type standing in for missing headers. */
  function RequestFor(m: Method, args: Args): (o: RequestOptions)
    ensures (m == GET || m == DELETE) ==> !o.WithBody? && (o.HeadersOnly? <==> args.headers.Some?)
    ensures (m == GET || m == DELETE) && args.headers.Some? ==> o.headers == args.headers.value
    ensures (m == POST || m == PUT || m == PATCH) ==> o.WithBody? && o.data == args.data
    ensures o.WithBody? ==> o.headers == args.headers.GetOr(JsonHeaders)
  {
    if m == GET || m == DELETE then
      if args.headers.Some? then HeadersOnly(args.headers.value) else NoOptions
    else
      WithBody(args.data, args.headers.GetOr(JsonHeaders))
  }

  function MethodName(m: Method): string {
    match m
    case GET => "GET"
    case POST => "POST"
    case PUT => "PUT"
    case PATCH => "PATCH"
    case DELETE => "DELETE"
  }

  /** `getResponseData` (src/executor.ts:110-127): a JSON body is pretty-printed when it parses, any
      other body is passed through as text. */
  function BodyText(w: World, r: Response): (text: string)
    ensures text == r.body || Some(text) == w.prettyJson(r.body)
    ensures "content-type" in r.headers && Contains(r.headers["content-type"], "application/json") ==>
              text == (if w.prettyJson(r.body).Some? then w.prettyJson(r.body).value else r.body)
    ensures !("content-type" in r.headers && Contains(r.headers["content-type"], "application/json")) ==> text == r.body
  {
    var contentType := if "content-type" in r.headers then r.headers["content-type"] else "";
    if Contains(contentType, "application/json") then w.prettyJson(r.body).GetOr(r.body) else r.body
  }

  /** The API handlers (src/executor.ts:475-637): the status line, then the body for every method but
      DELETE. */
  function HandleApi(w: World, client: Handle, m: Method, args: Args): (h: Attempt<CallResult>)
    ensures h.calls == [Send(client, m, args.url, RequestFor(m, args))]
    ensures h.outcome.Ok?
    ensures var sent := w.send(client, m, args.url, RequestFor(m, args));
      && (h.outcome.value.isError <==> sent.Err?)
      && (sent.Err? ==> h.outcome.value == Failure(MethodName(m) + " request failed: ", sent.message))
      && (sent.Ok? ==> (|h.outcome.value.content| == (if m == DELETE then 1 else 2) &&
                        h.outcome.value.content[0] == Text(MethodName(m) + " " + Show(args.url) + " - Status: " + Decimal(sent.value.status))))
      && (sent.Ok? && m != DELETE ==> h.outcome.value.content[1] == Text("Response body:\n" + BodyText(w, sent.value)))
  {
    var options := RequestFor(m, args);
    var calls := [Send(client, m, args.url, options)];
    match w.send(client, m, args.url, options)
    case Err(e) => Attempt(Ok(Failure(MethodName(m) + " request failed: ", e)), calls)
    case Ok(r) =>
      var status := Text(MethodName(m) + " " + Show(args.url) + " - Status: " + Decimal(r.status));
      var body := if m == DELETE then [] else [Text("Response body:\n" + BodyText(w, r))];
      Attempt(Ok(CallResult([status] + body, false)), calls)
  }

  /** The HTTP method of each API case of the dispatch switch (src/executor.ts:172-185). */
  function MethodOf(t: Catalogue.Tool): Method
    requires !t.IsBrowserTool()
  {
    match t
    case ApiGet => GET
    case ApiPost => POST
    case ApiPut => PUT
    case ApiPatch => PATCH
    case ApiDelete => DELETE
  }

  /** Every API tool sends the method its name spells: `api_` and the method in lower case. */
  lemma MethodIsSpelledByName(t: Catalogue.Tool)
    requires !t.IsBrowserTool()
    ensures Catalogue.Name(t) == "api_" + Lower(MethodName(MethodOf(t)))
  {
    var m := MethodName(MethodOf(t));
    var l := Lower(m);
    match t
    case ApiGet => assert l == "get";
    case ApiPost => assert l == "post";
    case ApiPut => assert l == "put";
    case ApiPatch => assert l == "patch";
    case ApiDelete => assert l == "delete";
  }

  /** The browser half of the dispatch switch (src/executor.ts:151-170). */
  function BrowserHandler(t: Catalogue.Tool, w: World, page: Option<Handle>, args: Args, reg: Registry.Registry): (h: Handled)
    requires t.IsBrowserTool()
    ensures t != Catalogue.Screenshot ==> h.screenshots == reg
    ensures h.screenshots == reg || (t == Catalogue.Screenshot && !h.result.isError)
    ensures Registry.Valid(reg) ==> Registry.Valid(h.screenshots)
    ensures |h.result.content| >= 1
    ensures forall c :: c in h.calls ==> HandlerCall(c)
  {
    if t == Catalogue.Screenshot then HandleScreenshot(w, page, args, reg) else PageHandler(t, w, page, args, reg)
  }

  /** The cases of the switch that leave the screenshot registry alone. */
  function PageHandler(t: Catalogue.Tool, w: World, page: Option<Handle>, args: Args, reg: Registry.Registry): (h: Handled)
    requires t.IsBrowserTool() && t != Catalogue.Screenshot
    ensures h.screenshots == reg && |h.result.content| >= 1
    ensures forall c :: c in h.calls ==> HandlerCall(c)
  {
    match t
    case Navigate => HandleNavigate(w, page, args, reg)
    case Click => HandleClick(w, page, args, reg)
    case Fill => HandleFill(w, page, args, reg)
    case Select => HandleSelect(w, page, args, reg)
    case Hover => HandleHover(w, page, args, reg)
    case Evaluate => HandleEvaluate(w, page, args, reg)
  }

  /** One tool call: the new session state, the result and the calls made. */
  datatype Step = Step(state: State, result: CallResult, calls: seq<Call>)

  /** `executeToolCall` (src/executor.ts:129-209). */
  function ExecuteToolCall(st: State, name: string, args: Args, w: World): (r: Step)
    ensures Catalogue.Classify(name) == Catalogue.UnknownRoute ==>
              r == Step(st, CallResult([Text("Unknown tool: " + name)], true), [])
    ensures Catalogue.Classify(name) == Catalogue.ApiRoute ==>
              r.state == st && |r.calls| >= 1 && r.calls[0] == NewRequestContext(args.url) &&
              forall c :: c in r.calls ==> c.NewRequestContext? || c.Send?
    ensures Catalogue.Classify(name) == Catalogue.ApiRoute && w.newRequestContext(args.url).Err? ==>
              r.result == ToolError(w.newRequestContext(args.url).message)
    ensures Catalogue.Classify(name) == Catalogue.BrowserRoute ==>
              var a := InitBrowser(st, w);
              && r.state.browser == a.state.browser && r.state.page == a.state.page
              && |a.calls| <= |r.calls| && r.calls[..|a.calls|] == a.calls
              && (a.page.Err? ==> r.state == a.state && r.result == ToolError(a.page.message) && r.calls == a.calls)
    ensures Catalogue.Classify(name) == Catalogue.BrowserRoute && InitBrowser(st, w).page.Ok? ==>
              var a := InitBrowser(st, w);
              var h := BrowserHandler(Catalogue.ParseTool(name).value, w, a.page.value, args, a.state.screenshots);
              r == Step(a.state.(screenshots := h.screenshots), h.result, a.calls + h.calls)
    ensures r.state.logs == st.logs
    ensures r.state.screenshots == st.screenshots || (name == "browser_screenshot" && !r.result.isError)
    ensures Consistent(st) ==> Consistent(r.state)
    ensures |r.result.content| >= 1
  {
    match Catalogue.ParseTool(name)
    case None => Step(st, CallResult([Text("Unknown tool: " + name)], true), [])
    case Some(t) => if t.IsBrowserTool() then BrowserStep(st, t, args, w) else ApiStep(st, t, args, w)
  }

  /** The browser branch of `executeToolCall`: acquire the session, then run the tool's handler. */
  function BrowserStep(st: State, t: Catalogue.Tool, args: Args, w: World): (r: Step)
    requires t.IsBrowserTool()
    ensures var a := InitBrowser(st, w);
      && r.state.browser == a.state.browser && r.state.page == a.state.page
      && |a.calls| <= |r.calls| && r.calls[..|a.calls|] == a.calls
      && (a.page.Err? ==> r.state == a.state && r.result == ToolError(a.page.message) && r.calls == a.calls)
      && (a.page.Ok? ==>
            var h := BrowserHandler(t, w, a.page.value, args, a.state.screenshots);
            r == Step(a.state.(screenshots := h.screenshots), h.result, a.calls + h.calls))
    ensures r.state.logs == st.logs
    ensures r.state.screenshots == st.screenshots || (t == Catalogue.Screenshot && !r.result.isError)
    ensures Consistent(st) ==> Consistent(r.state)
    ensures |r.result.content| >= 1
  {
    var a := InitBrowser(st, w);
    match a.page
    case Err(m) => Step(a.state, ToolError(m), a.calls)
    case Ok(page) =>
      var h := BrowserHandler(t, w, page, args, a.state.screenshots);
      assert (a.calls + h.calls)[..|a.calls|] == a.calls;
      Step(a.state.(screenshots := h.screenshots), h.result, a.calls + h.calls)
  }

  /** The API branch of `executeToolCall`: a fresh request context, then the method's handler. */
  function ApiStep(st: State, t: Catalogue.Tool, args: Args, w: World): (r: Step)
    requires !t.IsBrowserTool()
    ensures r.state == st && |r.calls| >= 1 && r.calls[0] == NewRequestContext(args.url)
    ensures forall c :: c in r.calls ==> c.NewRequestContext? || c.Send?
    ensures w.newRequestContext(args.url).Err? ==> r.result == ToolError(w.newRequestContext(args.url).message)
    ensures w.newRequestContext(args.url).Ok? ==>
              var client := w.newRequestContext(args.url).value;
              var m := MethodOf(t);
              && r.calls == [NewRequestContext(args.url), Send(client, m, args.url, RequestFor(m, args))]
              && r.result == HandleApi(w, client, m, args).outcome.value
    ensures |r.result.content| >= 1
  {
    match w.newRequestContext(args.url)
    case Err(m) => Step(st, ToolError(m), [NewRequestContext(args.url)])
    case Ok(client) =>
      var h := HandleApi(w, client, MethodOf(t), args);
      Step(st, h.outcome.value, [NewRequestContext(args.url)] + h.calls)
  }

  /** A successful screenshot call returns the image and stores the same data under its name. */
  lemma ScreenshotCallStores(st: State, args: Args, w: World)
    ensures var r := ExecuteToolCall(st, Catalogue.Name(Catalogue.Screenshot), args, w);
      !r.result.isError ==>
        && |r.result.content| == 2 && r.result.content[1].Image?
        && r.state.screenshots == Registry.Set(st.screenshots, KeyOf(args.name), r.result.content[1].data)
  {
    var name := Catalogue.Name(Catalogue.Screenshot);
    Catalogue.ParseName(Catalogue.Screenshot);
    var a := InitBrowser(st, w);
    if a.page.Ok? {
      assert a.state.screenshots == st.screenshots;
      var h := HandleScreenshot(w, a.page.value, args, a.state.screenshots);
      assert ExecuteToolCall(st, name, args, w) == Step(a.state.(screenshots := h.screenshots), h.result, a.calls + h.calls);
    }
  }

  /** A session whose start-up stopped after the launch keeps a browser without a page; from then on
      every browser tool fails on the null page without reaching the browser, and nothing relaunches. */
  lemma StrandedSessionFails(st: State, name: string, args: Args, w: World)
    requires st.browser.Some? && st.page.None?
    requires Catalogue.Classify(name) == Catalogue.BrowserRoute
    ensures var r := ExecuteToolCall(st, name, args, w);
      r.result.isError && r.calls == [] && r.state == st
  {
    var t := Catalogue.ParseTool(name).value;
    NullPageFails(t, w, args, st.screenshots);
    assert ExecuteToolCall(st, name, args, w) == BrowserStep(st, t, args, w);
  }

  /** Every browser handler given a null page fails on its first page access, before any call. */
  lemma NullPageFails(t: Catalogue.Tool, w: World, args: Args, reg: Registry.Registry)
    requires t.IsBrowserTool()
    ensures var h := BrowserHandler(t, w, None, args, reg);
      h.result.isError && h.calls == [] && h.screenshots == reg
  {
    match t
    case Navigate =>
    case Screenshot =>
      var h := HandleScreenshot(w, None, args, reg);
      assert h.calls == [];
    case Click =>
    case Fill =>
    case Select =>
    case Hover =>
    case Evaluate =>
  }

  /** The browser tools whose handler only acts on the page. */
  predicate ActsOnPage(t: Catalogue.Tool) {
    t == Catalogue.Navigate || t == Catalogue.Click || t == Catalogue.Fill || t == Catalogue.Select || t == Catalogue.Hover
  }

  /** The page operations such a tool performs, in order: navigation and clicks act at once; fill,
      select and hover first wait for the element. */
  function PageActions(t: Catalogue.Tool, args: Args): seq<PageAction>
    requires ActsOnPage(t)
  {
    match t
    case Navigate => [Goto(args.url, TimeoutOf(args), WaitUntilOf(args))]
    case Click => [Click(args.selector)]
    case Fill => [WaitFor(args.selector), FillIn(args.selector, args.value)]
    case Select => [WaitFor(args.selector), SelectOption(args.selector, args.value)]
    case Hover => [WaitFor(args.selector), HoverOver(args.selector)]
  }

  /** The calls that running `actions` in order on page `p` makes: each one up to and including the
      first that throws. */
  function Issued(w: World, p: Handle, actions: seq<PageAction>): seq<Call>
    decreases |actions|
  {
    if actions == [] then []
    else [Act(p, actions[0])] + (if w.act(p, actions[0]).Ok? then Issued(w, p, actions[1..]) else [])
  }

  predicate AllSucceed(w: World, p: Handle, actions: seq<PageAction>) {
    forall i :: 0 <= i < |actions| ==> w.act(p, actions[i]).Ok?
  }

  /** On a page, the handler a page-acting tool is dispatched to issues that tool's operations and
      fails exactly when one of them throws. */
  lemma HandlerRunsPageActions(t: Catalogue.Tool, w: World, p: Handle, args: Args, reg: Registry.Registry)
    requires ActsOnPage(t)
    ensures var h := BrowserHandler(t, w, Some(p), args, reg);
      && h.screenshots == reg
      && h.calls == Issued(w, p, PageActions(t, args))
      && (h.result.isError <==> !AllSucceed(w, p, PageActions(t, args)))
  {
    var acts := PageActions(t, args);
    if |acts| == 1 {
      IssuedOne(w, p, acts[0]);
    } else {
      IssuedTwo(w, p, acts[0], acts[1]);
    }
  }

  lemma IssuedOne(w: World, p: Handle, a: PageAction)
    ensures Issued(w, p, [a]) == [Act(p, a)]
    ensures AllSucceed(w, p, [a]) <==> w.act(p, a).Ok?
  {
    assert [a][1..] == [];
  }

  lemma IssuedTwo(w: World, p: Handle, a: PageAction, b: PageAction)
    ensures Issued(w, p, [a, b]) == [Act(p, a)] + (if w.act(p, a).Ok? then [Act(p, b)] else [])
    ensures AllSucceed(w, p, [a, b]) <==> w.act(p, a).Ok? && w.act(p, b).Ok?
  {
    assert [a, b][1..] == [b];
    IssuedOne(w, p, b);
  }

  /** A page-acting tool called by name, once the session has a page, issues its page operations in
      order after the session's own calls, stopping at the first that throws, and succeeds exactly
      when all of them do. */
  lemma PageToolRunsItsActions(st: State, t: Catalogue.Tool, args: Args, w: World)
    requires ActsOnPage(t)
    ensures var r := ExecuteToolCall(st, Catalogue.Name(t), args, w);
      var a := InitBrowser(st, w);
      a.page.Ok? && a.page.value.Some? ==>
        && r.state == a.state
        && r.calls == a.calls + Issued(w, a.page.value.value, PageActions(t, args))
        && (r.result.isError <==> !AllSucceed(w, a.page.value.value, PageActions(t, args)))
  {
    Catalogue.ParseName(t);
    var a := InitBrowser(st, w);
    if a.page.Ok? && a.page.value.Some? {
      HandlerRunsPageActions(t, w, a.page.value.value, args, a.state.screenshots);
      assert ExecuteToolCall(st, Catalogue.Name(t), args, w) == BrowserStep(st, t, args, w);
    }
  }

  /** `browser_evaluate`, once the session has a page, runs the script there with one call, and
      fails exactly when the evaluation throws. */
  lemma EvaluateToolRunsScript(st: State, args: Args, w: World)
    ensures var r := ExecuteToolCall(st, Catalogue.Name(Catalogue.Evaluate), args, w);
      var a := InitBrowser(st, w);
      a.page.Ok? && a.page.value.Some? ==>
        && r.state == a.state
        && r.calls == a.calls + [Evaluate(a.page.value.value, args.script)]
        && (r.result.isError <==> w.evaluate(a.page.value.value, args.script).Err?)
  {
    Catalogue.ParseName(Catalogue.Evaluate);
    var a := InitBrowser(st, w);
    if a.page.Ok? && a.page.value.Some? {
      assert ExecuteToolCall(st, Catalogue.Name(Catalogue.Evaluate), args, w) == BrowserStep(st, Catalogue.Evaluate, args, w);
    }
  }

  /** An API tool called by name leaves the session alone, builds a request context for the url, and
      then sends one request with the tool's method, answering with what the API handler makes of the
      response. */
  lemma ApiToolSends(st: State, t: Catalogue.Tool, args: Args, w: World)
    requires !t.IsBrowserTool()
    ensures var r := ExecuteToolCall(st, Catalogue.Name(t), args, w);
      var context := w.newRequestContext(args.url);
      && r.state == st
      && (context.Err? ==> r.calls == [NewRequestContext(args.url)] && r.result == ToolError(context.message))
      && (context.Ok? ==>
            var m := MethodOf(t);
            && r.calls == [NewRequestContext(args.url), Send(context.value, m, args.url, RequestFor(m, args))]
            && r.result == HandleApi(w, context.value, m, args).outcome.value)
  {
    Catalogue.ParseName(t);
    assert ExecuteToolCall(st, Catalogue.Name(t), args, w) == ApiStep(st, t, args, w);
  }

  /** `api_post` without headers sends its data with the JSON content type. */
  lemma PostWithoutHeadersSendsJson(st: State, args: Args, w: World)
    requires args.headers.None?
    ensures var r := ExecuteToolCall(st, Catalogue.Name(Catalogue.ApiPost), args, w);
      w.newRequestContext(args.url).Ok? ==>
        r.calls == [NewRequestContext(args.url), Send(w.newRequestContext(args.url).value, POST, args.url, WithBody(args.data, JsonHeaders))]
  {
    ApiToolSends(st, Catalogue.ApiPost, args, w);
  }

  /** `api_delete` answers with the status line alone, never the body; with `ApiToolSends` this is the reply of the dispatch. */
  lemma DeleteRepliesWithStatusOnly(w: World, client: Handle, args: Args)
    ensures var sent := w.send(client, DELETE, args.url, RequestFor(DELETE, args));
      sent.Ok? ==>
        HandleApi(w, client, DELETE, args).outcome.value ==
          CallResult([Text("DELETE " + Show(args.url) + " - Status: " + Decimal(sent.value.status))], false)
  {
    var reply := HandleApi(w, client, DELETE, args).outcome.value;
    if w.send(client, DELETE, args.url, RequestFor(DELETE, args)).Ok? {
      assert MethodName(DELETE) + " " == "DELETE ";
      assert reply.content == [reply.content[0]];
      assert !reply.isError;
    }
  }
}

=== FILE: registry.dfy ===
/**
 * The screenshot registry (src/executor.ts:11): a JavaScript `Map` from screenshot name to base64
 * image data. A JavaScript `Map` iterates its keys in first-insertion order, and setting a key that
 * is already present keeps its position, so the model keeps that order next to the values.
 */
module Registry {
  import opened Wrappers

  /** A key of the map: the `name` argument, or `undefined` when a call supplied none. */
  datatype Key = Named(name: string) | Undefined

  datatype Registry = Registry(order: seq<Key>, values: map<Key, string>)

  /** Each key appears once in the order, and the order lists exactly the keys that have values. */
  predicate Valid(r: Registry) {
    && (forall i, j :: 0 <= i < j < |r.order| ==> r.order[i] != r.order[j])
    && (forall k :: k in r.order ==> k in r.values)
    && (forall k :: k in r.values ==> k in r.order)
  }

  const Empty := Registry([], map[])

  /** `map.get(k)`. */
  function Get(r: Registry, k: Key): Option<string> {
    if k in r.values then Some(r.values[k]) else None
  }

  /** `map.set(k, v)`. */
  function Set(r: Registry, k: Key, v: string): (r': Registry)
    ensures Valid(r) ==> Valid(r')
    ensures Get(r', k) == Some(v)
    ensures forall k' :: k' != k ==> Get(r', k') == Get(r, k')
    ensures Valid(r) ==> |r'.order| == |r.order| + (if k in r.values then 0 else 1)
    ensures r.order <= r'.order
  {
    Registry(if k in r.values then r.order else r.order + [k], r.values[k := v])
  }

  lemma EmptyIsValid()
    ensures Valid(Empty)
  {
  }

  /** Setting the same key to the same value twice has the effect of setting it once. */
  lemma SetIsIdempotent(r: Registry, k: Key, v: string)
    ensures Set(Set(r, k, v), k, v) == Set(r, k, v)
  {
  }
}

=== FILE: resources.dfy ===
/**
 * The request handlers of the server (src/handlers.ts:11-72): listing and reading the resources
 * the session exposes (the console log and the screenshots), listing the tool catalogue, and
 * forwarding tool calls with their arguments defaulted. Console messages from the page arrive as
 * events between requests.
 */
module Resources {
  import opened Wrappers
  import opened Text
  import Registry
  import opened Capabilities
  import opened Session
  import Catalogue
  import Executor

  /** An entry of the resource list. */
  datatype Resource = Resource(uri: string, mimeType: string, name: string)

  /** The contents of a read resource: text for the log, base64 data for a screenshot. */
  datatype Contents = TextContents(uri: string, mimeType: string, text: string) | BlobContents(uri: string, mimeType: string, blob: string)

  const LogsUri := "browser://logs"
  const LogsResource := Resource(LogsUri, "text/plain", "Browser console logs")
  const Scheme := "screenshot://"

  /** How a template literal renders a registry key. */
  function KeyText(k: Registry.Key): string {
    match k
    case Named(n) => n
    case Undefined => "undefined"
  }

  function ScreenshotResource(k: Registry.Key): Resource {
    Resource(Scheme + KeyText(k), "image/png", "Screenshot: " + KeyText(k))
  }

  /** One list entry per key, in the registry's key order. */
  function ScreenshotResources(keys: seq<Registry.Key>): (rs: seq<Resource>)
    ensures |rs| == |keys|
    ensures forall i :: 0 <= i < |keys| ==> rs[i] == ScreenshotResource(keys[i])
  {
    if keys == [] then [] else [ScreenshotResource(keys[0])] + ScreenshotResources(keys[1..])
  }

  /** The list-resources handler (src/handlers.ts:12-30): the log first, then one screenshot per
      registry key in insertion order. */
  function ListResources(st: State): (rs: seq<Resource>)
    ensures |rs| == 1 + |st.screenshots.order| && rs[0] == LogsResource
    ensures forall i :: 0 <= i < |st.screenshots.order| ==> rs[i + 1] == ScreenshotResource(st.screenshots.order[i])
  {
    [LogsResource] + ScreenshotResources(st.screenshots.order)
  }

  /** The screenshot name a `screenshot://` uri selects: the text between the first and the second
      "://" (src/handlers.ts:45). */
  function NameInUri(uri: string): (name: string)
    requires StartsWith(uri, Scheme)
    ensures var rest := uri[|Scheme|..];
      && (!Contains(rest, "://") ==> name == rest)
      && (Contains(rest, "://") ==> name == rest[..Find(rest, "://").value])
  {
    var rest := uri[|Scheme|..];
    assert uri == Scheme + rest;
    SchemeOccursFirst(rest);
    SplitHead(rest, "://");
    Split(uri, "://")[1]
  }

  /** "screenshot" holds no ':', so the first "://" of a `screenshot://` uri is the scheme's. */
  lemma SchemeOccursFirst(rest: string)
    ensures Split(Scheme + rest, "://") == ["screenshot"] + Split(rest, "://")
  {
    var s := "screenshot" + "://" + rest;
    assert s == Scheme + rest;
    forall j | 0 <= j < 10
      ensures !OccursAt(s, "://", j)
    {
      assert s[j] == "screenshot"[j];
      assert ':' !in "screenshot";
    }
    SplitAfterFirst("screenshot", "://", rest);
  }

  /** A registry lookup that, like `if (screenshot)`, treats the empty string as missing. */
  function Stored(st: State, k: Registry.Key): Option<string> {
    match Registry.Get(st.screenshots, k)
    case Some(v) => if v != "" then Some(v) else None
    case None => None
  }

  /** The read-resource handler as written (src/handlers.ts:32-59). */
  function ReadResource(st: State, uri: string): (r: Outcome<Contents>)
    ensures uri == LogsUri ==> r == Ok(TextContents(uri, "text/plain", Join(st.logs, "\n")))
    ensures r.Err? ==> r.message == "Resource not found: " + uri
    ensures r.Ok? && uri != LogsUri ==>
              StartsWith(uri, Scheme) && Stored(st, Registry.Named(NameInUri(uri))).Some? &&
              r.value == BlobContents(uri, "image/png", Stored(st, Registry.Named(NameInUri(uri))).value)
    ensures uri != LogsUri && !StartsWith(uri, Scheme) ==> r.Err?
    ensures uri != LogsUri && StartsWith(uri, Scheme) && Stored(st, Registry.Named(NameInUri(uri))).Some? ==> r.Ok?
  {
    if uri == LogsUri then
      Ok(TextContents(uri, "text/plain", Join(st.logs, "\n")))
    else if StartsWith(uri, Scheme) && Stored(st, Registry.Named(NameInUri(uri))).Some? then
      Ok(BlobContents(uri, "image/png", Stored(st, Registry.Named(NameInUri(uri))).value))
    else
      Err("Resource not found: " + uri)
  }

  /** The read-resource handler with the name taken as everything after the scheme. */
  function ReadResourceIntended(st: State, uri: string): (r: Outcome<Contents>)
    ensures uri == LogsUri ==> r == ReadResource(st, uri)
    ensures r.Err? ==> r.message == "Resource not found: " + uri
    ensures r.Ok? && uri != LogsUri ==>
              StartsWith(uri, Scheme) && Stored(st, Registry.Named(uri[|Scheme|..])).Some? &&
              r.value == BlobContents(uri, "image/png", Stored(st, Registry.Named(uri[|Scheme|..])).value)
  {
    if uri == LogsUri then
      Ok(TextContents(uri, "text/plain", Join(st.logs, "\n")))
    else if StartsWith(uri, Scheme) && Stored(st, Registry.Named(uri[|Scheme|..])).Some? then
      Ok(BlobContents(uri, "image/png", Stored(st, Registry.Named(uri[|Scheme|..])).value))
    else
      Err("Resource not found: " + uri)
  }

  /** Every listed screenshot with a name and non-empty data reads back, through the corrected
      handler, as exactly the data stored under that name. */
  lemma ListedScreenshotsReadBack(st: State, i: nat)
    requires Registry.Valid(st.screenshots)
    requires i < |st.screenshots.order| && st.screenshots.order[i].Named?
    requires Stored(st, st.screenshots.order[i]).Some?
    ensures var uri := ListResources(st)[i + 1].uri;
      ReadResourceIntended(st, uri) == Ok(BlobContents(uri, "image/png", Stored(st, st.screenshots.order[i]).value))
  {
    var k := st.screenshots.order[i];
    var uri := Scheme + k.name;
    assert ListResources(st)[i + 1].uri == uri;
    assert uri[|Scheme|..] == k.name;
    assert uri != LogsUri by {
      assert uri[0] != LogsUri[0];
    }
  }

  /** The handler as written agrees with the corrected one on every uri whose name part holds no
      further "://"; in particular those names read back. */
  lemma ReadAgreesWithoutSeparator(st: State, uri: string)
    requires StartsWith(uri, Scheme) && !Contains(uri[|Scheme|..], "://")
    ensures ReadResource(st, uri) == ReadResourceIntended(st, uri)
  {
    var rest := uri[|Scheme|..];
    assert uri == Scheme + rest;
    SchemeOccursFirst(rest);
    SplitHead(rest, "://");
    assert NameInUri(uri) == rest;
  }

  /** A screenshot whose name is `a://b` is listed, yet reading its listed uri looks up `a`
      instead, so it fails unless `a` happens to be stored as well; the corrected handler finds it. */
  lemma SeparatorInNameIsUnreadable(st: State, a: string, b: string)
    requires ':' !in a
    requires Stored(st, Registry.Named(a + "://" + b)).Some? && Stored(st, Registry.Named(a)).None?
    ensures var uri := Scheme + (a + "://" + b);
      && ScreenshotResource(Registry.Named(a + "://" + b)).uri == uri
      && ReadResource(st, uri) == Err("Resource not found: " + uri)
      && ReadResourceIntended(st, uri) == Ok(BlobContents(uri, "image/png", Stored(st, Registry.Named(a + "://" + b)).value))
  {
    var rest := a + "://" + b;
    var uri := Scheme + rest;
    SchemeOccursFirst(rest);
    forall j | 0 <= j < |a|
      ensures !OccursAt(rest, "://", j)
    {
      assert rest[j] == a[j] && a[j] in a;
      if j + 3 <= |rest| {
        assert rest[j..j + 3][0] == rest[j];
      }
    }
    SplitAfterFirst(a, "://", b);
    assert NameInUri(uri) == a;
    assert uri[|Scheme|..] == rest;
    assert uri != LogsUri by {
      assert uri[0] != LogsUri[0];
    }
  }

  /** The smallest instance: a screenshot named "a://b" alone in the registry. */
  lemma SeparatorExample()
    ensures var st := Initial.(screenshots := Registry.Set(Registry.Empty, Registry.Named("a://b"), "QUJD"));
      ReadResource(st, "screenshot://a://b").Err? && ReadResourceIntended(st, "screenshot://a://b").Ok?
  {
    var st := Initial.(screenshots := Registry.Set(Registry.Empty, Registry.Named("a://b"), "QUJD"));
    assert "a" + "://" + "b" == "a://b";
    assert "screenshot://a://b" == Scheme + "a://b";
    assert Registry.Named("a") != Registry.Named("a://b");
    SeparatorInNameIsUnreadable(st, "a", "b");
  }

  /** The log resource gives back the captured lines, in capture order, when no line itself holds a
      newline. */
  lemma LogsReadBack(st: State)
    requires |st.logs| >= 1 && forall i :: 0 <= i < |st.logs| ==> '\n' !in st.logs[i]
    ensures ReadResource(st, LogsUri).Ok? && Split(ReadResource(st, LogsUri).value.text, "\n") == st.logs
  {
    SplitJoinChar(st.logs, '\n');
  }

  /** A request to the server, or a console message of the page arriving between requests. */
  datatype Request =
    | ListResourcesRequest
    | ReadResourceRequest(uri: string)
    | ListToolsRequest
    | CallToolRequest(name: string, arguments: Option<Executor.Args>)
    | ConsoleMessage(kind: string, text: string)

  datatype Reply =
    | ResourceList(resources: seq<Resource>)
    | ResourceContents(contents: Outcome<Contents>)
    | ToolList(tools: seq<Catalogue.ToolDef>)
    | ToolResult(result: Executor.CallResult)
    | Nothing

  datatype Served = Served(state: State, reply: Reply, calls: seq<Call>)

  /** One request against the session (src/handlers.ts:11-72; the console listener of
      src/executor.ts:96-99, which is attached to the page and so hears nothing while there is none). */
  function HandleRequest(st: State, req: Request, w: World): (s: Served)
    ensures !req.CallToolRequest? && !req.ConsoleMessage? ==> s.state == st && s.calls == []
    ensures req.ListResourcesRequest? ==> s.reply == ResourceList(ListResources(st))
    ensures req.ReadResourceRequest? ==> s.reply == ResourceContents(ReadResource(st, req.uri))
    ensures req.ListToolsRequest? ==> s.reply == ToolList(Catalogue.RegisterTools())
    ensures req.CallToolRequest? ==> s.reply.ToolResult?
    ensures req.ConsoleMessage? ==>
      s.reply == Nothing && s.calls == [] &&
      s.state == Hear(st, req.kind, req.text)
    ensures Consistent(st) ==> Consistent(s.state)
    ensures |st.logs| <= |s.state.logs| && s.state.logs[..|st.logs|] == st.logs
  {
    match req
    case CallToolRequest(name, arguments) => CallTool(st, name, arguments, w)
    case ConsoleMessage(kind, text) => Served(Hear(st, kind, text), Nothing, [])
    case _ => Served(st, Answer(st, req), [])
  }

  /** A console message reaches the log only through the listener of an open page. */
  function Hear(st: State, kind: string, text: string): (st': State)
    ensures |st.logs| <= |st'.logs| && st'.logs[..|st.logs|] == st.logs
    ensures Consistent(st) ==> Consistent(st')
    ensures st.page.None? ==> st' == st
    ensures st.page.Some? ==> st' == st.(logs := st.logs + ["[" + kind + "] " + text])
  {
    if st.page.Some? then OnConsole(st, kind, text) else st
  }

  /** The reply to a request that only reads the session. */
  function Answer(st: State, req: Request): Reply
    requires !req.CallToolRequest? && !req.ConsoleMessage?
  {
    match req
    case ListResourcesRequest => ResourceList(ListResources(st))
    case ReadResourceRequest(uri) => ResourceContents(ReadResource(st, uri))
    case ListToolsRequest => ToolList(Catalogue.RegisterTools())
  }

  /** The call-tool handler: `executeToolCall` on the arguments, or on `{}` when the request
      carries none. */
  function CallTool(st: State, name: string, arguments: Option<Executor.Args>, w: World): (s: Served)
    ensures s.reply.ToolResult?
    ensures Consistent(st) ==> Consistent(s.state)
    ensures |st.logs| <= |s.state.logs| && s.state.logs[..|st.logs|] == st.logs
  {
    var r := Executor.ExecuteToolCall(st, name, arguments.GetOr(Executor.NoArgs), w);
    Served(r.state, ToolResult(r.result), r.calls)
  }

  /** A tool request is answered by running `executeToolCall`, with `{}` for missing arguments. */
  lemma CallToolRuns(st: State, name: string, arguments: Option<Executor.Args>, w: World)
    ensures var r := Executor.ExecuteToolCall(st, name, if arguments.Some? then arguments.value else Executor.NoArgs, w);
      HandleRequest(st, CallToolRequest(name, arguments), w) == Served(r.state, ToolResult(r.result), r.calls)
  {
  }

  /** A run of requests, the `i`-th meeting the world `worlds(i)`: the final state and the replies. */
  datatype Run = Run(state: State, replies: seq<Reply>)

  /** The worlds met after the first request. */
  function Later(worlds: nat -> World): nat -> World {
    (i: nat) => worlds(i + 1)
  }

  function Serve(st: State, reqs: seq<Request>, worlds: nat -> World): (r: Run)
    ensures |r.replies| == |reqs|
    decreases |reqs|
  {
    if reqs == [] then Run(st, [])
    else
      var s := HandleRequest(st, reqs[0], worlds(0));
      var rest := Serve(s.state, reqs[1..], Later(worlds));
      Run(rest.state, [s.reply] + rest.replies)
  }

  /** The `i`-th reply of a run answers the `i`-th request, met in the state the earlier requests
      left behind. */
  lemma {:induction false} ServeAnswers(st: State, reqs: seq<Request>, worlds: nat -> World, i: nat)
    requires i < |reqs|
    ensures Serve(st, reqs, worlds).replies[i] == HandleRequest(Serve(st, reqs[..i], worlds).state, reqs[i], worlds(i)).reply
    decreases i
  {
    var s := HandleRequest(st, reqs[0], worlds(0));
    var rest := Serve(s.state, reqs[1..], Later(worlds));
    assert Serve(st, reqs, worlds).replies == [s.reply] + rest.replies;
    if i == 0 {
      assert reqs[..0] == [];
    } else {
      ServeAnswers(s.state, reqs[1..], Later(worlds), i - 1);
      var prefix := reqs[..i];
      assert prefix[0] == reqs[0] && prefix[1..] == reqs[1..][..i - 1];
      assert Serve(st, prefix, worlds).state == Serve(s.state, reqs[1..][..i - 1], Later(worlds)).state;
      assert Later(worlds)(i - 1) == worlds(i);
    }
  }

  /** The session invariant holds across any run of requests. */
  lemma {:induction false} ServeKeepsConsistent(st: State, reqs: seq<Request>, worlds: nat -> World)
    requires Consistent(st)
    ensures Consistent(Serve(st, reqs, worlds).state)
    decreases |reqs|
  {
    if reqs != [] {
      var s := HandleRequest(st, reqs[0], worlds(0));
      assert Consistent(s.state);
      ServeKeepsConsistent(s.state, reqs[1..], Later(worlds));
      assert Serve(st, reqs, worlds).state == Serve(s.state, reqs[1..], Later(worlds)).state;
    }
  }

  /** The log is append-only: whatever a run does, the earlier lines stay, in order. */
  lemma {:induction false} LogIsAppendOnly(st: State, reqs: seq<Request>, worlds: nat -> World)
    ensures var fin := Serve(st, reqs, worlds).state;
      |st.logs| <= |fin.logs| && fin.logs[..|st.logs|] == st.logs
    decreases |reqs|
  {
    if reqs != [] {
      var s := HandleRequest(st, reqs[0], worlds(0));
      var mid := s.state.logs;
      assert |st.logs| <= |mid| && mid[..|st.logs|] == st.logs;
      LogIsAppendOnly(s.state, reqs[1..], Later(worlds));
      var fin := Serve(s.state, reqs[1..], Later(worlds)).state.logs;
      assert Serve(st, reqs, worlds).state.logs == fin;
      assert fin[..|mid|] == mid;
      assert fin[..|st.logs|] == fin[..|mid|][..|st.logs|];
    }
  }

  /** Listing is free of effects: listing twice in a row answers the same both times. */
  lemma ListingTwiceAgrees(st: State, w: World, w': World)
    ensures var first := HandleRequest(st, ListResourcesRequest, w);
      HandleRequest(first.state, ListResourcesRequest, w') == first
  {
  }

  /** A screenshot stored under a name is listed under its uri, and non-empty data reads back
      through the corrected handler. */
  lemma StoredScreenshotIsListed(st: State, n: string, data: string)
    requires Registry.Valid(st.screenshots) && Registry.Get(st.screenshots, Registry.Named(n)) == Some(data)
    ensures Resource(Scheme + n, "image/png", "Screenshot: " + n) in ListResources(st)
    ensures data != "" ==> ReadResourceIntended(st, Scheme + n) == Ok(BlobContents(Scheme + n, "image/png", data))
  {
    var k := Registry.Named(n);
    assert k in st.screenshots.values;
    assert k in st.screenshots.order;
    var i :| 0 <= i < |st.screenshots.order| && st.screenshots.order[i] == k;
    var rs := ListResources(st);
    assert rs[i + 1] == ScreenshotResource(k);
    assert rs[i + 1] in rs;
    if data != "" {
      assert Stored(st, k) == Some(data);
      ListedScreenshotsReadBack(st, i);
    }
  }

  /** A successful named screenshot is listed, and reads back through the corrected handler as the
      data the call returned. */
  lemma ScreenshotIsListed(st: State, args: Executor.Args, w: World)
    requires Consistent(st) && args.name.Some?
    ensures var r := Executor.ExecuteToolCall(st, Catalogue.Name(Catalogue.Screenshot), args, w);
      var uri := Scheme + args.name.value;
      !r.result.isError ==>
        && |r.result.content| == 2 && r.result.content[1].Image?
        && Resource(uri, "image/png", "Screenshot: " + args.name.value) in ListResources(r.state)
        && (r.result.content[1].data != "" ==>
              ReadResourceIntended(r.state, uri) == Ok(BlobContents(uri, "image/png", r.result.content[1].data)))
  {
    var r := Executor.ExecuteToolCall(st, Catalogue.Name(Catalogue.Screenshot), args, w);
    Executor.ScreenshotCallStores(st, args, w);
    if !r.result.isError {
      var data := r.result.content[1].data;
      assert Registry.Get(r.state.screenshots, Registry.Named(args.name.value)) == Some(data);
      StoredScreenshotIsListed(r.state, args.name.value, data);
    }
  }
}

=== FILE: session.dfy ===
/**
 * The browser session (src/executor.ts:8-102): the browser kind chosen from the environment and the
 * settings file, the engine that kind selects, the lazy start-up of one browser and one page, its
 * teardown, and the console log the page feeds.
 */
module Session {
  import opened Wrappers
  import opened Text
  import opened Settings
  import Registry
  import opened Capabilities

  /** The module-level variables `browser`, `page`, `browserLogs` and `screenshotRegistry`. */
  datatype State = State(browser: Option<Handle>, page: Option<Handle>, logs: seq<string>, screenshots: Registry.Registry)

  /** There is no page without a browser, and the registry is well formed. */
  predicate Consistent(st: State) {
    (st.browser.None? ==> st.page.None?) && Registry.Valid(st.screenshots)
  }

  const Initial := State(None, None, [], Registry.Empty)

  lemma InitialIsConsistent()
    ensures Consistent(Initial)
  {
    Registry.EmptyIsValid();
  }

  const BrowserTypeVar := "MCP_BROWSER_TYPE"

  /** The browser kind a valid settings object names: a non-empty string under `browserType`. */
  predicate NamesKind(config: Persisted, kind: string) {
    && config.Parsed? && config.value.JObject? && "browserType" in config.value.fields
    && config.value.fields["browserType"] == JStr(kind) && kind != ""
  }

  /** `config.browserType` on a parsed settings value: None stands for `undefined`, and a null value
      throws (Err). */
  function BrowserTypeProperty(v: JsValue): (r: Outcome<Option<JsValue>>)
    ensures r.Err? <==> v.JNull?
    ensures v.JObject? ==> r == Ok(if "browserType" in v.fields then Some(v.fields["browserType"]) else None)
    ensures !v.JObject? && !v.JNull? ==> r == Ok(None)
  {
    match v
    case JNull => Err("Cannot read properties of null (reading 'browserType')")
    case JObject(f) => Ok(if "browserType" in f then Some(f["browserType"]) else None)
    case _ => Ok(None)
  }

  /** `getBrowserType` (src/executor.ts:14-32): a non-empty environment override wins, then a
      non-empty string in the settings file, lowered; anything else, including a throwing read, a
      throwing property access or a truthy non-string that has no `toLowerCase`, falls back to
      "chrome". */
  function GetBrowserType(env: map<string, string>, config: Persisted): (kind: string)
    ensures BrowserTypeVar in env && env[BrowserTypeVar] != "" ==> kind == Lower(env[BrowserTypeVar])
    ensures !(BrowserTypeVar in env && env[BrowserTypeVar] != "") ==>
              kind == if exists k :: NamesKind(config, k) then Lower(config.value.fields["browserType"].s) else "chrome"
    ensures forall i :: 0 <= i < |kind| ==> !IsUpper(kind[i])
  {
    if BrowserTypeVar in env && env[BrowserTypeVar] != "" then
      LowerIsIdempotent(env[BrowserTypeVar]);
      Lower(env[BrowserTypeVar])
    else
      match config
      case NoFile => "chrome"
      case Unreadable => "chrome"
      case Parsed(v) =>
        match BrowserTypeProperty(v)
        case Err(_) => "chrome"
        case Ok(p) =>
          if p.Some? && Truthy(p.value) then
            if p.value.JStr? then
              assert NamesKind(config, p.value.s);
              LowerIsIdempotent(p.value.s);
              Lower(p.value.s)
            else
              "chrome"
          else
            "chrome"
  }

  /** The engine switch of src/executor.ts:70-83: every kind selects an engine. */
  function EngineFor(kind: string): (e: Engine)
    ensures e == Firefox <==> kind == "firefox"
    ensures e == Webkit <==> kind == "webkit" || kind == "safari"
  {
    if kind == "firefox" then Firefox
    else if kind == "webkit" || kind == "safari" then Webkit
    else Chromium
  }

  /** The launch of src/executor.ts:85-88: headed, with the branded Chrome channel only for "chrome". */
  function LaunchFor(kind: string): (o: LaunchOptions)
    ensures o.engine == EngineFor(kind) && !o.headless
    ensures o.channel.Some? <==> kind == "chrome"
    ensures o.channel.Some? ==> o.channel.value == "chrome" && o.engine == Chromium
  {
    LaunchOptions(EngineFor(kind), false, if kind == "chrome" then Some("chrome") else None)
  }

  /** The context options of src/executor.ts:90-93, fixed whatever the settings say. */
  const ContextDefaults := ContextOptions(1920, 1080, 1)

  /** The result of acquiring the page: the new state, the page (possibly null) or the error that
      escaped, and the calls made. */
  datatype Acquired = Acquired(state: State, page: Outcome<Option<Handle>>, calls: seq<Call>)

  /** `initBrowser` (src/executor.ts:65-102). With a browser present it does nothing and returns the
      current page. Otherwise it launches, opens a context, opens a page and returns it; a failure at
      any step escapes, after the browser (if launched) has been stored. */
  function InitBrowser(st: State, w: World): (a: Acquired)
    ensures st.browser.Some? ==> a == Acquired(st, Ok(st.page), [])
    ensures st.browser.None? ==> |a.calls| >= 1 && a.calls[0] == Launch(LaunchFor(GetBrowserType(w.env, w.config)))
    ensures forall i :: 0 < i < |a.calls| ==> !a.calls[i].Launch?
    ensures forall c :: c in a.calls && c.NewContext? ==> c.options == ContextDefaults
    ensures a.state.logs == st.logs && a.state.screenshots == st.screenshots
    ensures Consistent(st) ==> Consistent(a.state)
    ensures st.browser.None? && a.page.Ok? ==> a.page.value.Some? && a.state.browser.Some? && a.state.page == a.page.value
    ensures a.page.Err? ==> a.state.page == st.page
    ensures st.browser.None? ==>
      var launched := w.launch(LaunchFor(GetBrowserType(w.env, w.config)));
      && (launched.Err? ==> a == Acquired(st, Err(launched.message), [Launch(LaunchFor(GetBrowserType(w.env, w.config)))]))
      && (launched.Ok? ==> a.state.browser == Some(launched.value))
      && (a.page.Ok? <==>
            launched.Ok? && w.newContext(launched.value, ContextDefaults).Ok? &&
            w.newPage(w.newContext(launched.value, ContextDefaults).value).Ok?)
    ensures st.browser.None? && a.page.Ok? ==>
      var options := LaunchFor(GetBrowserType(w.env, w.config));
      var b := w.launch(options).value;
      var c := w.newContext(b, ContextDefaults).value;
      && a.page == Ok(Some(w.newPage(c).value))
      && a.calls == [Launch(options), NewContext(b, ContextDefaults), NewPage(c)]
  {
    if st.browser.Some? then
      Acquired(st, Ok(st.page), [])
    else
      var options := LaunchFor(GetBrowserType(w.env, w.config));
      match w.launch(options)
      case Err(m) => Acquired(st, Err(m), [Launch(options)])
      case Ok(b) =>
        var launched := st.(browser := Some(b));
        match w.newContext(b, ContextDefaults)
        case Err(m) => Acquired(launched, Err(m), [Launch(options), NewContext(b, ContextDefaults)])
        case Ok(c) =>
          match w.newPage(c)
          case Err(m) => Acquired(launched, Err(m), [Launch(options), NewContext(b, ContextDefaults), NewPage(c)])
          case Ok(p) =>
            Acquired(launched.(page := Some(p)), Ok(Some(p)),
                     [Launch(options), NewContext(b, ContextDefaults), NewPage(c)])
  }

  /** Once a page has been acquired, acquiring again launches nothing and returns the same page. */
  lemma InitBrowserIsIdempotent(st: State, w: World, w': World)
    requires InitBrowser(st, w).page.Ok?
    ensures var a := InitBrowser(st, w);
      InitBrowser(a.state, w') == Acquired(a.state, a.page, [])
  {
  }

  /** The teardown result: the new state and the calls made. */
  datatype Closed = Closed(state: State, calls: seq<Call>)

  /** `cleanupBrowser` (src/executor.ts:52-63): without a browser nothing happens; a successful close
      forgets both browser and page; a failed close is swallowed and changes nothing. */
  function CleanupBrowser(st: State, w: World): (c: Closed)
    ensures st.browser.None? ==> c == Closed(st, [])
    ensures st.browser.Some? ==> c.calls == [Close(st.browser.value)]
    ensures c.state == st || c.state == st.(browser := None, page := None)
    ensures c.state.browser.None? <==> st.browser.None? || w.close(st.browser.value).Ok?
    ensures Consistent(st) ==> Consistent(c.state)
  {
    match st.browser
    case None => Closed(st, [])
    case Some(b) =>
      match w.close(b)
      case Ok(_) => Closed(st.(browser := None, page := None), [Close(b)])
      case Err(_) => Closed(st, [Close(b)])
  }

  /** After a successful teardown the next acquisition starts a fresh browser. */
  lemma RestartAfterCleanup(st: State, w: World, w': World)
    requires st.browser.Some? && w.close(st.browser.value).Ok?
    ensures var c := CleanupBrowser(st, w);
      InitBrowser(c.state, w').calls[0] == Launch(LaunchFor(GetBrowserType(w'.env, w'.config)))
  {
  }

  /** The console listener of src/executor.ts:96-99: each console message of the page appends
      `[type] text` to the log. */
  function OnConsole(st: State, kind: string, text: string): (st': State)
    ensures |st'.logs| == |st.logs| + 1 && st'.logs[..|st.logs|] == st.logs
    ensures st'.logs[|st.logs|] == "[" + kind + "] " + text
    ensures st' == st.(logs := st'.logs)
  {
    st.(logs := st.logs + ["[" + kind + "] " + text])
  }

  /** A `--browser` flag given at start-up decides the engine, whatever the settings file holds,
      unless that file could not be read: the flag's value, lowered, reaches the environment
      before any property assignment can throw. */
  lemma BrowserFlagDecidesKind(
    tokens: seq<string>, v: string, env: map<string, string>, persisted: Persisted, later: Persisted, ns: NumberSyntax)
    requires v != "" && !persisted.Unreadable?
    ensures var r := ApplyFlags(Expected(tokens + ["--browser", v], ns), env, persisted, ns);
      GetBrowserType(r.env, later) == Lower(v)
  {
    var t := tokens + ["--browser", v];
    LastOccurrenceWins(tokens, "--browser", v);
    var flags := Expected(t, ns);
    assert flags.browserType == Some(Lower(v));
    assert Lower(v)[0] == LowerChar(v[0]);
    var config := if persisted.NoFile? then JObject(map[]) else persisted.value;
    var r := Apply(Order, flags, ns, env, config);
    assert r == ApplyFlags(flags, env, persisted, ns);
    FirstSettingReachesEnv(Order, flags, ns, env, config);
    LowerIsIdempotent(v);
  }

  /** The first setting of the order, when it applies, has its variable set by the merge, and the
      later settings never overwrite it. */
  lemma FirstSettingReachesEnv(order: seq<Setting>, flags: Flags, ns: NumberSyntax, env: map<string, string>, config: JsValue)
    requires order == Order && Pending(flags, BrowserType, ns).Some?
    ensures var r := Apply(order, flags, ns, env, config);
      BrowserTypeVar in r.env && r.env[BrowserTypeVar] == Pending(flags, BrowserType, ns).value.text
  {
    var a := Pending(flags, BrowserType, ns).value;
    var env' := env[BrowserTypeVar := a.text];
    match SetProperty(config, ConfigKey(BrowserType), a.json)
    case None =>
    case Some(c) =>
      assert forall s :: s in Order[1..] ==> EnvVar(s) != BrowserTypeVar;
      ApplyKeepsVariable(Order[1..], flags, ns, env', c, BrowserTypeVar);
  }

  /** A merge over settings none of which names `k` leaves `k`'s variable alone. */
  lemma {:induction false} ApplyKeepsVariable(
    order: seq<Setting>, flags: Flags, ns: NumberSyntax, env: map<string, string>, config: JsValue, k: string)
    requires forall s :: s in order ==> EnvVar(s) != k
    ensures var r := Apply(order, flags, ns, env, config);
      (k in r.env <==> k in env) && (k in env ==> r.env[k] == env[k])
    decreases |order|
  {
    if order != [] {
      match Pending(flags, order[0], ns)
      case None =>
        ApplyKeepsVariable(order[1..], flags, ns, env, config, k);
      case Some(a) =>
        var env' := env[EnvVar(order[0]) := a.text];
        match SetProperty(config, ConfigKey(order[0]), a.json)
        case None =>
        case Some(c) =>
          ApplyKeepsVariable(order[1..], flags, ns, env', c, k);
    }
  }
}

=== FILE: settings.dfy ===
/**
 * Start-up settings (src/index.ts:8-62): the command-line scan of `parseArgs` and the merge of the
 * parsed flags into the process environment and the persisted settings object.
 *
 * The settings file is given as it reads at start-up (`Persisted`); number parsing and number
 * printing are given as opaque functions (`NumberSyntax`); the write itself is not modelled, only
 * the value handed to it.
 */
module Settings {
  import opened Wrappers
  import opened Text

  /** A JavaScript number. */
  datatype Num = NaN | Infinity(negative: bool) | Finite(value: real)

  /** JavaScript truthiness of a number: everything but NaN and zero. */
  predicate NumTruthy(n: Num) {
    !n.NaN? && !(n.Finite? && n.value == 0.0)
  }

  /** A value as `JSON.parse` produces it. */
  datatype JsValue =
    | JNull
    | JBool(b: bool)
    | JNum(n: Num)
    | JStr(s: string)
    | JArray(items: seq<JsValue>)
    | JObject(fields: map<string, JsValue>)

  predicate Truthy(v: JsValue) {
    match v
    case JNull => false
    case JBool(b) => b
    case JNum(n) => NumTruthy(n)
    case JStr(s) => s != ""
    case JArray(_) => true
    case JObject(_) => true
  }

  /** The settings file as read at one moment: absent, unreadable or unparsable (the read throws),
      or the parsed value. */
  datatype Persisted = NoFile | Unreadable | Parsed(value: JsValue)

  /** `parseInt(s, 10)`, `parseFloat(s)` and `Number.prototype.toString`, left opaque. */
  datatype NumberSyntax = NumberSyntax(parseInt: string -> Num, parseFloat: string -> Num, show: Num -> string)

  /** The four settings a flag can set. */
  datatype Setting = BrowserType | ViewportWidth | ViewportHeight | DeviceScaleFactor

  function Flag(s: Setting): string {
    match s
    case BrowserType => "--browser"
    case ViewportWidth => "--viewport-width"
    case ViewportHeight => "--viewport-height"
    case DeviceScaleFactor => "--device-scale-factor"
  }

  function EnvVar(s: Setting): string {
    match s
    case BrowserType => "MCP_BROWSER_TYPE"
    case ViewportWidth => "MCP_VIEWPORT_WIDTH"
    case ViewportHeight => "MCP_VIEWPORT_HEIGHT"
    case DeviceScaleFactor => "MCP_DEVICE_SCALE_FACTOR"
  }

  function ConfigKey(s: Setting): string {
    match s
    case BrowserType => "browserType"
    case ViewportWidth => "viewportWidth"
    case ViewportHeight => "viewportHeight"
    case DeviceScaleFactor => "deviceScaleFactor"
  }

  /** The order in which `parseArgs` applies the settings. */
  const Order: seq<Setting> := [BrowserType, ViewportWidth, ViewportHeight, DeviceScaleFactor]

  /** The variables of the scan; None is the initial `null`. */
  datatype Flags = Flags(
    browserType: Option<string>,
    viewportWidth: Option<Num>,
    viewportHeight: Option<Num>,
    deviceScaleFactor: Option<Num>)

  const NoFlags := Flags(None, None, None, None)

  /** The last index at which `flag` occurs with another token after it. */
  function LastIndex(tokens: seq<string>, flag: string): (r: Option<nat>)
    ensures r.Some? ==> r.value + 1 < |tokens| && tokens[r.value] == flag
    ensures r.Some? ==> forall j :: r.value < j < |tokens| - 1 ==> tokens[j] != flag
    ensures r.None? ==> forall j :: 0 <= j < |tokens| - 1 ==> tokens[j] != flag
    decreases |tokens|
  {
    if |tokens| < 2 then None
    else if tokens[|tokens| - 2] == flag then Some(|tokens| - 2)
    else
      var r := LastIndex(tokens[..|tokens| - 1], flag);
      assert forall j :: 0 <= j < |tokens| - 1 ==> tokens[..|tokens| - 1][j] == tokens[j];
      r
  }

  /** The token following the last honoured occurrence of `flag`. */
  function ValueAfter(tokens: seq<string>, flag: string): Option<string> {
    match LastIndex(tokens, flag)
    case Some(i) => Some(tokens[i + 1])
    case None => None
  }

  function ParseWith(parse: string -> Num, v: Option<string>): Option<Num> {
    match v
    case Some(t) => Some(parse(t))
    case None => None
  }

  /** What the scan computes, stated per flag: the last honoured occurrence decides. */
  function Expected(tokens: seq<string>, ns: NumberSyntax): Flags {
    Flags(
      match ValueAfter(tokens, Flag(BrowserType)) case Some(v) => Some(Lower(v)) case None => None,
      ParseWith(ns.parseInt, ValueAfter(tokens, Flag(ViewportWidth))),
      ParseWith(ns.parseInt, ValueAfter(tokens, Flag(ViewportHeight))),
      ParseWith(ns.parseFloat, ValueAfter(tokens, Flag(DeviceScaleFactor))))
  }

  /** Extending the scanned prefix by one token adds the pair ending at that token. */
  lemma LastIndexStep(tokens: seq<string>, i: nat, flag: string)
    requires i + 1 < |tokens|
    ensures LastIndex(tokens[..i + 2], flag) ==
              if tokens[i] == flag then Some(i) else LastIndex(tokens[..i + 1], flag)
  {
    assert tokens[..i + 2][..i + 1] == tokens[..i + 1];
  }

  /** The number of leading tokens the first `i` iterations have looked at. */
  function Scanned(i: nat, n: nat): nat {
    if i + 1 <= n then i + 1 else n
  }

  /** One iteration of the loop of `parseArgs` (src/index.ts:18-29): the four flag tests at index `i`. */
  function Examine(flags: Flags, tokens: seq<string>, i: nat, ns: NumberSyntax): (r: Flags)
    requires i < |tokens|
    ensures i + 1 == |tokens| ==> r == flags
    ensures tokens[i] != Flag(BrowserType) ==> r.browserType == flags.browserType
    ensures tokens[i] != Flag(ViewportWidth) ==> r.viewportWidth == flags.viewportWidth
    ensures tokens[i] != Flag(ViewportHeight) ==> r.viewportHeight == flags.viewportHeight
    ensures tokens[i] != Flag(DeviceScaleFactor) ==> r.deviceScaleFactor == flags.deviceScaleFactor
    ensures i + 1 < |tokens| && tokens[i] == Flag(BrowserType) ==> r.browserType == Some(Lower(tokens[i + 1]))
  {
    var f1 := if tokens[i] == Flag(BrowserType) && i + 1 < |tokens|
      then flags.(browserType := Some(Lower(tokens[i + 1]))) else flags;
    var f2 := if tokens[i] == Flag(ViewportWidth) && i + 1 < |tokens|
      then f1.(viewportWidth := Some(ns.parseInt(tokens[i + 1]))) else f1;
    var f3 := if tokens[i] == Flag(ViewportHeight) && i + 1 < |tokens|
      then f2.(viewportHeight := Some(ns.parseInt(tokens[i + 1]))) else f2;
    if tokens[i] == Flag(DeviceScaleFactor) && i + 1 < |tokens|
    then f3.(deviceScaleFactor := Some(ns.parseFloat(tokens[i + 1]))) else f3
  }

  /** The value after a flag in a prefix one token longer: the new pair wins when it is the flag's. */
  lemma ValueAfterStep(tokens: seq<string>, i: nat, flag: string)
    requires i + 1 < |tokens|
    ensures ValueAfter(tokens[..i + 2], flag) ==
              if tokens[i] == flag then Some(tokens[i + 1]) else ValueAfter(tokens[..i + 1], flag)
  {
    LastIndexStep(tokens, i, flag);
    var longer, shorter := tokens[..i + 2], tokens[..i + 1];
    assert longer[i + 1] == tokens[i + 1];
    match LastIndex(shorter, flag)
    case None =>
    case Some(k) =>
      assert longer[k + 1] == shorter[k + 1];
  }

  /** Examining index `i` turns the expected flags of the scanned prefix into those of the next one. */
  lemma ExamineStep(tokens: seq<string>, i: nat, ns: NumberSyntax)
    requires i < |tokens|
    ensures Examine(Expected(tokens[..Scanned(i, |tokens|)], ns), tokens, i, ns) ==
              Expected(tokens[..Scanned(i + 1, |tokens|)], ns)
  {
    if i + 1 < |tokens| {
      ValueAfterStep(tokens, i, Flag(BrowserType));
      ValueAfterStep(tokens, i, Flag(ViewportWidth));
      ValueAfterStep(tokens, i, Flag(ViewportHeight));
      ValueAfterStep(tokens, i, Flag(DeviceScaleFactor));
    } else {
      assert Scanned(i, |tokens|) == Scanned(i + 1, |tokens|);
    }
  }

  /** The loop of `parseArgs`: every index is examined, and a flag followed by a token takes it as its
      value without skipping it. */
  method ScanArgs(tokens: seq<string>, ns: NumberSyntax) returns (flags: Flags)
    ensures flags == Expected(tokens, ns)
  {
    flags := NoFlags;
    var i := 0;
    while i < |tokens|
      invariant 0 <= i <= |tokens|
      invariant flags == Expected(tokens[..Scanned(i, |tokens|)], ns)
    {
      ExamineStep(tokens, i, ns);
      flags := Examine(flags, tokens, i, ns);
      i := i + 1;
    }
    assert tokens[..|tokens|] == tokens;
  }

  /** A flag followed by a value as the last two tokens overrides every earlier occurrence. */
  lemma {:induction false} LastOccurrenceWins(tokens: seq<string>, flag: string, v: string)
    ensures ValueAfter(tokens + [flag, v], flag) == Some(v)
  {
    var t := tokens + [flag, v];
    assert t[|t| - 2] == flag && t[|t| - 1] == v;
  }

  /** A flag with nothing after it is ignored: appending it leaves that flag's value as it was,
      unless the previous last token is the same flag (which then takes it as its value). */
  lemma {:induction false} TrailingFlagIgnored(tokens: seq<string>, flag: string)
    requires tokens == [] || tokens[|tokens| - 1] != flag
    ensures ValueAfter(tokens + [flag], flag) == ValueAfter(tokens, flag)
  {
    var t := tokens + [flag];
    if |t| >= 2 {
      assert t[|t| - 2] == tokens[|tokens| - 1];
      assert t[..|t| - 1] == tokens;
    }
  }

  /** Value tokens are not consumed: `--browser --viewport-width 800` sets both the browser kind and
      the width. */
  lemma ValueTokensAreExamined(ns: NumberSyntax)
    ensures Expected(["--browser", "--viewport-width", "800"], ns).browserType == Some("--viewport-width")
    ensures Expected(["--browser", "--viewport-width", "800"], ns).viewportWidth == Some(ns.parseInt("800"))
  {
    var t := ["--browser", "--viewport-width", "800"];
    BrowserValueIsNextToken(t);
    assert ValueAfter(t, "--viewport-width") == Some("800") by {
      LastOccurrenceWins(["--browser"], "--viewport-width", "800");
      assert ["--browser"] + ["--viewport-width", "800"] == t;
    }
    LowerUnchanged("--viewport-width");
  }

  lemma BrowserValueIsNextToken(t: seq<string>)
    requires t == ["--browser", "--viewport-width", "800"]
    ensures ValueAfter(t, "--browser") == Some("--viewport-width")
  {
    assert t[1] != "--browser" by {
      assert t[1][2] != "--browser"[2];
    }
    LastIndexStep(t, 1, "--browser");
    assert t[..3] == t;
  }

  /** An assignment a flag makes: the environment string and the JSON value stored under its key. */
  datatype Assignment = Assignment(text: string, json: JsValue)

  function NumAssignment(n: Option<Num>, ns: NumberSyntax): Option<Assignment> {
    if n.Some? && NumTruthy(n.value) then Some(Assignment(ns.show(n.value), JNum(n.value))) else None
  }

  /** The parsed value of a numeric setting. */
  function NumberFlag(flags: Flags, s: Setting): Option<Num>
    requires s != BrowserType
  {
    match s
    case ViewportWidth => flags.viewportWidth
    case ViewportHeight => flags.viewportHeight
    case DeviceScaleFactor => flags.deviceScaleFactor
  }

  /** The assignment a setting makes, or None when its parsed value is missing or falsy. */
  function Pending(flags: Flags, s: Setting, ns: NumberSyntax): (a: Option<Assignment>)
    ensures a.Some? ==> Truthy(a.value.json)
    ensures s == BrowserType ==>
      && (a.Some? <==> flags.browserType.Some? && flags.browserType.value != "")
      && (a.Some? ==> a.value == Assignment(flags.browserType.value, JStr(flags.browserType.value)))
    ensures s != BrowserType ==>
      && (a.Some? <==> NumberFlag(flags, s).Some? && NumTruthy(NumberFlag(flags, s).value))
      && (a.Some? ==> a.value == Assignment(ns.show(NumberFlag(flags, s).value), JNum(NumberFlag(flags, s).value)))
  {
    match s
    case BrowserType =>
      if flags.browserType.Some? && flags.browserType.value != ""
      then Some(Assignment(flags.browserType.value, JStr(flags.browserType.value)))
      else None
    case ViewportWidth => NumAssignment(flags.viewportWidth, ns)
    case ViewportHeight => NumAssignment(flags.viewportHeight, ns)
    case DeviceScaleFactor => NumAssignment(flags.deviceScaleFactor, ns)
  }

  /** `config[key] = value` in strict-mode code: an object gains the property; an array takes it as a
      named property that `JSON.stringify` drops; null and primitives throw a TypeError (None). */
  function SetProperty(config: JsValue, key: string, value: JsValue): (r: Option<JsValue>)
    ensures r.None? <==> !config.JObject? && !config.JArray?
    ensures config.JArray? ==> r == Some(config)
    ensures config.JObject? ==>
      && r.Some? && r.value.JObject? && key in r.value.fields && r.value.fields[key] == value
      && (forall k :: k != key ==> (k in r.value.fields <==> k in config.fields))
      && (forall k :: k != key && k in config.fields ==> r.value.fields[k] == config.fields[k])
  {
    match config
    case JObject(f) => Some(JObject(f[key := value]))
    case JArray(_) => Some(config)
    case _ => None
  }

  /** The environment after `parseArgs`, and the value handed to the settings-file write, if any. */
  datatype ParseResult = ParseResult(env: map<string, string>, written: Option<JsValue>)

  /** The assignments of src/index.ts:38-56, in order: each sets its environment variable and then
      the settings property; a throwing property assignment ends the merge before the write. */
  function Apply(order: seq<Setting>, flags: Flags, ns: NumberSyntax, env: map<string, string>, config: JsValue)
    : (r: ParseResult)
    ensures config.JArray? ==> r.written == Some(config)
    ensures config.JObject? ==> r.written.Some? && r.written.value.JObject?
    ensures !config.JObject? && !config.JArray? ==> (r.written.None? <==> FirstPending(order, flags, ns).Some?)
    ensures r.written.Some? && !config.JObject? ==> r.written == Some(config)
    decreases |order|
  {
    if order == [] then ParseResult(env, Some(config))
    else
      match Pending(flags, order[0], ns)
      case None => Apply(order[1..], flags, ns, env, config)
      case Some(a) =>
        var env' := env[EnvVar(order[0]) := a.text];
        match SetProperty(config, ConfigKey(order[0]), a.json)
        case None => ParseResult(env', None)
        case Some(c) => Apply(order[1..], flags, ns, env', c)
  }

  /** src/index.ts:32-61: merge the flags into the settings read from the file (an empty object when
      there is none); if reading or parsing throws, nothing is set and nothing is written. */
  function ApplyFlags(flags: Flags, env: map<string, string>, persisted: Persisted, ns: NumberSyntax): (r: ParseResult)
    ensures persisted.Unreadable? ==> r == ParseResult(env, None)
  {
    match persisted
    case Unreadable => ParseResult(env, None)
    case NoFile => Apply(Order, flags, ns, env, JObject(map[]))
    case Parsed(v) => Apply(Order, flags, ns, env, v)
  }

  /** `parseArgs`: scan the tokens, then merge. */
  method ParseArgs(tokens: seq<string>, env: map<string, string>, persisted: Persisted, ns: NumberSyntax)
    returns (r: ParseResult)
    ensures r == ApplyFlags(Expected(tokens, ns), env, persisted, ns)
    ensures persisted.Unreadable? ==> r.env == env && r.written.None?
  {
    var flags := ScanArgs(tokens, ns);
    r := ApplyFlags(flags, env, persisted, ns);
  }

  predicate Distinct(order: seq<Setting>) {
    forall i, j :: 0 <= i < j < |order| ==> order[i] != order[j]
  }

  lemma ConfigKeyIsInjective(a: Setting, b: Setting)
    ensures ConfigKey(a) == ConfigKey(b) ==> a == b
    ensures EnvVar(a) == EnvVar(b) ==> a == b
  {
  }

  /** Merging into an object: every applied flag of a repetition-free order sets its variable and its
      property to the same value, and the result is still an object. */
  lemma {:induction false} ApplyToObjectSets(
    order: seq<Setting>, flags: Flags, ns: NumberSyntax, env: map<string, string>, f: map<string, JsValue>)
    requires Distinct(order)
    ensures var r := Apply(order, flags, ns, env, JObject(f));
      && r.written.Some? && r.written.value.JObject?
      && (forall s :: s in order && Pending(flags, s, ns).Some? ==>
            && EnvVar(s) in r.env && r.env[EnvVar(s)] == Pending(flags, s, ns).value.text
            && ConfigKey(s) in r.written.value.fields
            && r.written.value.fields[ConfigKey(s)] == Pending(flags, s, ns).value.json)
    decreases |order|
  {
    if order != [] {
      var s := order[0];
      assert Distinct(order[1..]);
      assert forall t :: t in order[1..] ==> t != s;
      match Pending(flags, s, ns)
      case None =>
        ApplyToObjectSets(order[1..], flags, ns, env, f);
      case Some(a) =>
        forall t | t in order[1..]
          ensures ConfigKey(t) != ConfigKey(s) && EnvVar(t) != EnvVar(s)
        {
          ConfigKeyIsInjective(t, s);
        }
        var env', f' := env[EnvVar(s) := a.text], f[ConfigKey(s) := a.json];
        assert SetProperty(JObject(f), ConfigKey(s), a.json) == Some(JObject(f'));
        assert Apply(order, flags, ns, env, JObject(f)) == Apply(order[1..], flags, ns, env', JObject(f'));
        ApplyToObjectKeeps(order[1..], flags, ns, env', f');
        ApplyToObjectSets(order[1..], flags, ns, env', f');
    }
  }

  /** Merging into an object leaves every property and every variable that no applied flag names as
      it was, and the result is still an object. */
  lemma {:induction false} ApplyToObjectKeeps(
    order: seq<Setting>, flags: Flags, ns: NumberSyntax, env: map<string, string>, f: map<string, JsValue>)
    ensures var r := Apply(order, flags, ns, env, JObject(f));
      && r.written.Some? && r.written.value.JObject?
      && (forall k :: (forall s :: s in order && Pending(flags, s, ns).Some? ==> ConfigKey(s) != k) ==>
            (k in r.written.value.fields <==> k in f) && (k in f ==> r.written.value.fields[k] == f[k]))
      && (forall k :: (forall s :: s in order && Pending(flags, s, ns).Some? ==> EnvVar(s) != k) ==>
            (k in r.env <==> k in env) && (k in env ==> r.env[k] == env[k]))
    decreases |order|
  {
    if order != [] {
      var s := order[0];
      assert forall t :: t in order[1..] ==> t in order;
      match Pending(flags, s, ns)
      case None =>
        ApplyToObjectKeeps(order[1..], flags, ns, env, f);
      case Some(a) =>
        var env', f' := env[EnvVar(s) := a.text], f[ConfigKey(s) := a.json];
        assert SetProperty(JObject(f), ConfigKey(s), a.json) == Some(JObject(f'));
        assert Apply(order, flags, ns, env, JObject(f)) == Apply(order[1..], flags, ns, env', JObject(f'));
        ApplyToObjectKeeps(order[1..], flags, ns, env', f');
    }
  }

  /** When the file is absent or holds an object, every applied flag reaches both the environment and
      the written settings, with the same value, and nothing else in either changes. */
  lemma MergeIntoObject(flags: Flags, env: map<string, string>, persisted: Persisted, ns: NumberSyntax)
    requires persisted.NoFile? || (persisted.Parsed? && persisted.value.JObject?)
    ensures var r := ApplyFlags(flags, env, persisted, ns);
      var prior := if persisted.NoFile? then map[] else persisted.value.fields;
      && r.written.Some? && r.written.value.JObject?
      && (forall s :: Pending(flags, s, ns).Some? ==>
            && EnvVar(s) in r.env && r.env[EnvVar(s)] == Pending(flags, s, ns).value.text
            && ConfigKey(s) in r.written.value.fields
            && r.written.value.fields[ConfigKey(s)] == Pending(flags, s, ns).value.json)
      && (forall s :: Pending(flags, s, ns).None? ==>
            (ConfigKey(s) in r.written.value.fields <==> ConfigKey(s) in prior)
            && (ConfigKey(s) in prior ==> r.written.value.fields[ConfigKey(s)] == prior[ConfigKey(s)]))
      && (forall k :: (forall s :: ConfigKey(s) != k) ==>
            (k in r.written.value.fields <==> k in prior) && (k in prior ==> r.written.value.fields[k] == prior[k]))
  {
    var prior := if persisted.NoFile? then map[] else persisted.value.fields;
    forall s: Setting
      ensures s in Order
    {
      match s
      case BrowserType => assert Order[0] == s;
      case ViewportWidth => assert Order[1] == s;
      case ViewportHeight => assert Order[2] == s;
      case DeviceScaleFactor => assert Order[3] == s;
    }
    ApplyToObjectSets(Order, flags, ns, env, prior);
    ApplyToObjectKeeps(Order, flags, ns, env, prior);
    forall s | Pending(flags, s, ns).None?
      ensures forall t :: t in Order && Pending(flags, t, ns).Some? ==> ConfigKey(t) != ConfigKey(s)
    {
      forall t | t in Order && Pending(flags, t, ns).Some?
        ensures ConfigKey(t) != ConfigKey(s)
      {
        ConfigKeyIsInjective(t, s);
      }
    }
  }

  /** The first setting in `order` whose flag applies, if any. */
  function FirstPending(order: seq<Setting>, flags: Flags, ns: NumberSyntax): (r: Option<Setting>)
    ensures r.Some? ==> r.value in order && Pending(flags, r.value, ns).Some?
    ensures r.None? ==> forall s :: s in order ==> Pending(flags, s, ns).None?
    ensures r.Some? ==>
      exists i :: 0 <= i < |order| && order[i] == r.value && forall j :: 0 <= j < i ==> Pending(flags, order[j], ns).None?
  {
    if order == [] then None
    else if Pending(flags, order[0], ns).Some? then Some(order[0])
    else
      var r := FirstPending(order[1..], flags, ns);
      if r.Some? then
        var i :| 0 <= i < |order[1..]| && order[1..][i] == r.value && forall j :: 0 <= j < i ==> Pending(flags, order[1..][j], ns).None?;
        assert order[i + 1] == r.value && forall j :: 0 <= j < i + 1 ==> Pending(flags, order[j], ns).None?;
        r
      else r
  }

  /** A settings file holding null, a boolean, a number or a string: the first applied flag sets its
      environment variable and then its property assignment throws, so later flags are lost and
      nothing is written; with no applied flag the value is written back unchanged. */
  lemma {:induction false} ApplyToPrimitive(
    order: seq<Setting>, flags: Flags, ns: NumberSyntax, env: map<string, string>, v: JsValue)
    requires !v.JObject? && !v.JArray?
    ensures var r := Apply(order, flags, ns, env, v);
      match FirstPending(order, flags, ns)
      case None => r == ParseResult(env, Some(v))
      case Some(s) => r == ParseResult(env[EnvVar(s) := Pending(flags, s, ns).value.text], None)
    decreases |order|
  {
    if order != [] && Pending(flags, order[0], ns).None? {
      ApplyToPrimitive(order[1..], flags, ns, env, v);
    }
  }
}

=== FILE: text.dfy ===
/**
 * The JavaScript string operations the adapter relies on, over `string` (= `seq<char>`):
 * `toLowerCase`, `includes`/`indexOf`, `startsWith`, `split`, `Array.prototype.join`
 * and the decimal rendering of a non-negative integer.
 */
module Text {
  import opened Wrappers

  predicate IsUpper(c: char) {
    'A' <= c <= 'Z'
  }

  function LowerChar(c: char): char {
    if IsUpper(c) then (c as int + 32) as char else c
  }

  /** `s.toLowerCase()`, restricted to the ASCII letters. */
  function Lower(s: string): (r: string)
    ensures |r| == |s|
    ensures forall i :: 0 <= i < |s| ==> r[i] == LowerChar(s[i])
  {
    if s == [] then [] else [LowerChar(s[0])] + Lower(s[1..])
  }

  /** A lowered string holds no upper-case letter, so lowering it again changes nothing. */
  lemma LowerIsIdempotent(s: string)
    ensures forall i :: 0 <= i < |Lower(s)| ==> !IsUpper(Lower(s)[i])
    ensures Lower(Lower(s)) == Lower(s)
  {
    var l := Lower(s);
    assert forall i :: 0 <= i < |l| ==> LowerChar(l[i]) == l[i];
    assert Lower(l) == l;
  }

  /** A string without upper-case letters is its own lower-case form. */
  lemma LowerUnchanged(s: string)
    requires forall i :: 0 <= i < |s| ==> !IsUpper(s[i])
    ensures Lower(s) == s
  {
  }

  predicate StartsWith(s: string, prefix: string) {
    |prefix| <= |s| && s[..|prefix|] == prefix
  }

  /** `sep` occurs in `s` starting at index `j`. */
  predicate OccursAt(s: string, sep: string, j: int) {
    0 <= j && j + |sep| <= |s| && s[j..j + |sep|] == sep
  }

  lemma OccursShift(s: string, sep: string, j: int)
    requires |s| > 0 && j >= 1
    ensures OccursAt(s, sep, j) <==> OccursAt(s[1..], sep, j - 1)
  {
    if j + |sep| <= |s| {
      assert s[1..][j - 1..j - 1 + |sep|] == s[j..j + |sep|];
    }
  }

  /** `s.indexOf(sep)`: the first index at which `sep` occurs, or None (JavaScript's -1). */
  function Find(s: string, sep: string): (r: Option<nat>)
    ensures r.Some? ==> OccursAt(s, sep, r.value)
    ensures r.Some? ==> forall j :: 0 <= j < r.value ==> !OccursAt(s, sep, j)
    ensures r.None? ==> forall j :: !OccursAt(s, sep, j)
    decreases |s|
  {
    if |s| < |sep| then None
    else if s[..|sep|] == sep then Some(0)
    else
      var rest := Find(s[1..], sep);
      forall j | j >= 1
        ensures OccursAt(s, sep, j) <==> OccursAt(s[1..], sep, j - 1)
      {
        OccursShift(s, sep, j);
      }
      assert !OccursAt(s, sep, 0);
      match rest
      case Some(k) => Some(k + 1)
      case None => None
  }

  /** `s.includes(sep)`. */
  predicate Contains(s: string, sep: string) {
    Find(s, sep).Some?
  }

  /** The first occurrence is the unique one with no occurrence before it. */
  lemma FindFirst(s: string, sep: string, k: nat)
    requires OccursAt(s, sep, k)
    requires forall j :: 0 <= j < k ==> !OccursAt(s, sep, j)
    ensures Find(s, sep) == Some(k)
  {
  }

  /** A one-character separator occurs exactly where that character does. */
  lemma FindChar(s: string, c: char)
    ensures Find(s, [c]).None? <==> c !in s
  {
    if c in s {
      var j :| 0 <= j < |s| && s[j] == c;
      assert s[j..j + 1] == [c];
      assert OccursAt(s, [c], j);
    } else {
      forall j
        ensures !OccursAt(s, [c], j)
      {
        if 0 <= j && j + 1 <= |s| {
          assert s[j..j + 1][0] == s[j];
        }
      }
    }
  }

  /** A prefix of `s` ending before the first occurrence of `sep` holds no occurrence of it. */
  lemma NoOccurrenceBeforeFirst(s: string, sep: string, k: nat)
    requires |sep| > 0 && k <= |s|
    requires forall j :: 0 <= j < k ==> !OccursAt(s, sep, j)
    ensures Find(s[..k], sep).None?
  {
    forall j | 0 <= j
      ensures !OccursAt(s[..k], sep, j)
    {
      OccursInPrefix(s, sep, k, j);
    }
  }

  /** An occurrence inside a prefix is an occurrence in the whole string, starting inside the prefix. */
  lemma OccursInPrefix(s: string, sep: string, k: nat, j: int)
    requires |sep| > 0 && k <= |s|
    ensures OccursAt(s[..k], sep, j) ==> OccursAt(s, sep, j) && j < k
  {
    if OccursAt(s[..k], sep, j) {
      assert s[..k][j..j + |sep|] == s[j..j + |sep|];
    }
  }

  /** `s.split(sep)` for a non-empty separator: the pieces between successive leftmost occurrences. */
  function Split(s: string, sep: string): (parts: seq<string>)
    requires |sep| > 0
    ensures |parts| >= 1
    ensures forall i :: 0 <= i < |parts| ==> Find(parts[i], sep).None?
    decreases |s|
  {
    match Find(s, sep)
    case None => [s]
    case Some(k) =>
      NoOccurrenceBeforeFirst(s, sep, k);
      [s[..k]] + Split(s[k + |sep|..], sep)
  }

  /** The first piece of a split is the text before the first occurrence of the separator. */
  lemma SplitHead(s: string, sep: string)
    requires |sep| > 0
    ensures Find(s, sep).None? ==> Split(s, sep) == [s]
    ensures Find(s, sep).Some? ==> Split(s, sep)[0] == s[..Find(s, sep).value]
  {
  }

  /** When `a` holds no occurrence of `sep` that starts inside it, splitting `a + sep + b` yields `a`
      and then the pieces of `b`. */
  lemma SplitAfterFirst(a: string, sep: string, b: string)
    requires |sep| > 0
    requires forall j :: 0 <= j < |a| ==> !OccursAt(a + sep + b, sep, j)
    ensures Split(a + sep + b, sep) == [a] + Split(b, sep)
  {
    var s := a + sep + b;
    assert s[|a|..|a| + |sep|] == sep;
    FindFirst(s, sep, |a|);
    assert s[..|a|] == a;
    assert s[|a| + |sep|..] == b;
  }

  /** `parts.join(sep)`. */
  function Join(parts: seq<string>, sep: string): string {
    if |parts| == 0 then ""
    else if |parts| == 1 then parts[0]
    else parts[0] + sep + Join(parts[1..], sep)
  }

  /** Joining with one more trailing piece appends the separator and the piece. */
  lemma {:induction false} JoinSnoc(parts: seq<string>, last: string, sep: string)
    requires |parts| >= 1
    ensures Join(parts + [last], sep) == Join(parts, sep) + sep + last
    decreases |parts|
  {
    if |parts| == 1 {
      assert parts + [last] == [parts[0], last];
    } else {
      assert (parts + [last])[1..] == parts[1..] + [last];
      JoinSnoc(parts[1..], last, sep);
    }
  }

  /** Joining a piece in front of at least one more puts the separator between them. */
  lemma JoinCons(head: string, rest: seq<string>, sep: string)
    requires |rest| >= 1
    ensures Join([head] + rest, sep) == head + sep + Join(rest, sep)
  {
    var parts := [head] + rest;
    assert parts[0] == head && parts[1..] == rest;
  }

  /** Splitting and re-joining with the same separator gives the original string back. */
  lemma {:induction false} JoinSplit(s: string, sep: string)
    requires |sep| > 0
    ensures Join(Split(s, sep), sep) == s
    decreases |s|
  {
    match Find(s, sep)
    case None =>
    case Some(k) =>
      var head, tail := s[..k], s[k + |sep|..];
      var rest := Split(tail, sep);
      assert Split(s, sep) == [head] + rest;
      JoinSplit(tail, sep);
      JoinCons(head, rest, sep);
      assert s[k..k + |sep|] == sep;
      assert s == s[..k] + s[k..k + |sep|] + s[k + |sep|..];
      calc {
        Join(Split(s, sep), sep);
        Join([head] + rest, sep);
        head + sep + Join(rest, sep);
        head + sep + tail;
      }
  }

  /** Pieces free of a one-character separator are recovered by splitting their join. */
  lemma {:induction false} SplitJoinChar(parts: seq<string>, c: char)
    requires |parts| >= 1
    requires forall i :: 0 <= i < |parts| ==> c !in parts[i]
    ensures Split(Join(parts, [c]), [c]) == parts
    decreases |parts|
  {
    FindChar(parts[0], c);
    if |parts| > 1 {
      var p := parts[0];
      var s := Join(parts, [c]);
      var tail := Join(parts[1..], [c]);
      assert s == p + [c] + tail;
      assert s[|p|..|p| + 1] == [c];
      forall j | 0 <= j < |p|
        ensures !OccursAt(s, [c], j)
      {
        assert s[j..j + 1][0] == p[j];
      }
      FindFirst(s, [c], |p|);
      assert s[..|p|] == p;
      assert s[|p| + 1..] == tail;
      SplitJoinChar(parts[1..], c);
    }
  }

  predicate IsDigit(c: char) {
    '0' <= c <= '9'
  }

  function Digit(d: nat): char
    requires d < 10
  {
    (d + '0' as int) as char
  }

  /** The decimal rendering of `n` (`String(n)` for a non-negative integer). */
  function Decimal(n: nat): (r: string)
    ensures |r| >= 1
    ensures forall i :: 0 <= i < |r| ==> IsDigit(r[i])
    ensures r[0] == '0' ==> n == 0
    decreases n
  {
    if n < 10 then [Digit(n)] else Decimal(n / 10) + [Digit(n % 10)]
  }

  /** The value a string of decimal digits denotes. */
  function DigitsValue(s: string): nat
    requires forall i :: 0 <= i < |s| ==> IsDigit(s[i])
  {
    if s == [] then 0
    else
      assert IsDigit(s[|s| - 1]);
      10 * DigitsValue(s[..|s| - 1]) + (s[|s| - 1] as int - '0' as int)
  }

  /** Reading back the decimal rendering gives the number. */
  lemma {:induction false} DecimalValue(n: nat)
    ensures DigitsValue(Decimal(n)) == n
    decreases n
  {
    if n >= 10 {
      var r := Decimal(n);
      assert r[..|r| - 1] == Decimal(n / 10);
      DecimalValue(n / 10);
    }
  }
}

=== FILE: wrappers.dfy ===
/** Option and outcome types shared by every module of the model. */
module Wrappers {

  /** A value that may be absent: the model's rendering of JavaScript's `undefined`/`null`. */
  datatype Option<+T> = None | Some(value: T) {

    /** The value, or the default when absent (JavaScript's `x ?? d`). */
    function GetOr(default: T): T {
      match this
      case Some(v) => v
      case None => default
    }
  }

  /** The outcome of a call into code outside the model: a value, or the message of the error it threw. */
  datatype Outcome<+T> = Ok(value: T) | Err(message: string)

  /** The result of an external call that produces no value. */
  datatype Unit = Unit
}
